=== FILE: README.md ===
# Splitting merged EMCAL clusters

`AliAnaInsideClusterInvariantMass` looks inside a single calorimeter cluster
for the two photons of a merged pi0 (or eta) decay. For every cluster of an
event it:

- applies an energy / cell-count pre-selection;
- finds the local energy maxima of the cluster's cells with a pairwise kill
  pass over the cell-id list, where a killed slot holds -1;
- counts the maxima into a multiplicity bucket (1, 2, 3 or more);
- applies a shower-shape cut on lambda_0^2;
- picks two seed cells;
- splits the cluster energy between them by two greedy downhill growths over
  a shared pool of cells;
- forms the invariant mass of the two seed momenta and labels it with the
  first matching mass window (conversion, pi0, eta).

This project is a Dafny model of that core, together with proofs of its
properties. Geometry and calibrated cell energies are function parameters:

- a geometry `g: int -> CellIndex(sm, row, col)`;
- an amplitude `amp: int -> real`.

The files:

- `cells.dfy` (`Cells`): shared vocabulary. It holds cell indices, the -1
  marker, live-slot counting, energy sums, distinctness and subsequences.
- `neighbours.dfy` (`Neighbours`): the neighbour test `AreNeighbours`, which
  shifts columns across super-modules.
- `maxima.dfy` (`LocalMaxima`):
  - a functional reference model of the kill pass and of the compaction
    (`InnerScan`, `OuterScan`, `Compact`, `Maxima`), and the lemmas about it;
  - the array method `GetNumberOfLocalMaxima`, proved equal to that model.
- `seeds.dfy` (`Seeds`): the seed choice inside the cluster loop, as a pure
  function.
- `split.dfy` (`Split`):
  - a functional model of `SplitEnergy` (`Scan`, `Grow`, `Split`) and the
    growth invariant;
  - the array method `SplitEnergy`, proved equal to that model;
  - worked examples.
- `classify.dfy` (`Classify`): the pre-selection, the multiplicity bucket, the
  shape cut, the mass windows with their default values, and the energy
  fall-back used for a seed's momentum.
- `pipeline.dfy` (`Pipeline`): the per-cluster chain, the per-event loop
  (which stops at the first cluster without maxima), and the composition of
  the array implementations.

Behaviour that the model keeps as written:

- **The maxima depend on cell order.** A cell killed as the inner cell of an
  earlier comparison is skipped when its own turn as the outer cell comes, so
  it never suppresses its lower neighbours. With Z > Y > X, where Z and Y
  touch, Y and X touch, and Z and X do not, the order Z, Y, X returns both Z
  and X: Z kills Y first, and X then has no live higher neighbour. The order
  X, Y, Z returns only Z (`LocalMaxima.MaximaDependOnOrder`).
- **A dead outer cell keeps comparing.** A cell killed while it is the outer
  cell finishes its inner loop with the energy it read before, and still
  kills lower neighbours. In the order Y, Z, X, the cell Y dies against Z and
  then kills X (`LocalMaxima.DeadOuterKeepsKilling`).
- **The mass windows are open intervals.** A mass exactly on a bound gets no
  label.
- **Pass 2 of the split does not exclude seed 1.** When seed 2 is above seed
  1, seed 1 can be claimed a second time. Its energy then counts in both sums
  (`Split.SeedOneClaimedBySecondGrowth`).
- **Only the cell claimed last becomes the next front.** A cell reachable
  only through an earlier claim of the same pass is never claimed, so
  `ncells1 + ncells2` can fall short of the cluster size
  (`Split.EarlierClaimsNeverExpand`).
- **The pre-selection drops a cluster only when both conditions fail.** Its
  energy must be out of range AND it must have fewer cells than the minimum.
  The source's comment reads as an "or", but the code uses `&&`.
- **Seeds are not checked.** No check rejects a missing or repeated seed. The
  model instead proves that the seeds the chain actually produces are safe
  (`Pipeline.SeedsSafe`).

## Model

All paths are in `PWG4/PartCorrDep/AliAnaInsideClusterInvariantMass.cxx`.

| member | source | states |
|---|---|---|
| Neighbours.NeighboursAreTouching | PWG4/PartCorrDep/AliAnaInsideClusterInvariantMass.cxx:121-154 | `AreNeighbours` is true exactly when the two cells are at most one row and one column apart in the shared column space and not at the same position, so diagonal cells are neighbours. |
| Neighbours.SameModuleNeighbours | PWG4/PartCorrDep/AliAnaInsideClusterInvariantMass.cxx:147-151 | Inside one super-module the test is plain 8-connectivity of the module's own rows and columns. |
| Neighbours.NeighboursIrreflexive | PWG4/PartCorrDep/AliAnaInsideClusterInvariantMass.cxx:147-151 | Two ids at the same position, in particular a cell and itself, are never neighbours. |
| Neighbours.NeighboursSymmetric | PWG4/PartCorrDep/AliAnaInsideClusterInvariantMass.cxx:142-151 | The test is symmetric for cells in the same super-module or in super-modules of different parity. |
| Neighbours.NeighboursAsymmetricSameParity | PWG4/PartCorrDep/AliAnaInsideClusterInvariantMass.cxx:142-145 | For super-modules of equal parity the column shift depends on argument order: a concrete pair is neighbours one way round and not the other. |
| LocalMaxima.KillOrderStrict | PWG4/PartCorrDep/AliAnaInsideClusterInvariantMass.cxx:413-433 | With the near-degeneracy cut fixed at 0, exactly one of two compared neighbours dies: the inner cell if strictly lower, otherwise the outer cell (so the outer cell loses a tie). |
| LocalMaxima.MaximaListed | PWG4/PartCorrDep/AliAnaInsideClusterInvariantMass.cxx:393-455 | `Maxima` is the kill pass `OuterScan` (with its inner loop `InnerScan` and one `Compare` per pair) followed by the compaction `Compact`. The maxima are at most as many as the cells. Each is a non-negative cluster id with energy at least 0.1, and together they keep the cluster order as a subsequence. They are distinct when the cluster ids are. |
| LocalMaxima.MaximaNotNeighbours | PWG4/PartCorrDep/AliAnaInsideClusterInvariantMass.cxx:402-433 | No two returned maxima are neighbours, in either argument order. |
| LocalMaxima.HighestReturned | PWG4/PartCorrDep/AliAnaInsideClusterInvariantMass.cxx:393-450 | With non-negative ids, a highest cell of the cluster with energy at least 0.1 has its energy among the maxima: it survives, or a cell of equal energy that beat it on a tie does. |
| LocalMaxima.OneMaximumIsHighest | PWG4/PartCorrDep/AliAnaInsideClusterInvariantMass.cxx:393-450 | With non-negative ids, a single maximum is a highest cell of the whole cluster. The proof starts from a highest cell picked by the proof helper `TopIndex`, which models nothing in the source. |
| LocalMaxima.OuterScanKeepsTop | PWG4/PartCorrDep/AliAnaInsideClusterInvariantMass.cxx:393-433 | Through the whole double loop, some slot holding a highest cell stays alive. |
| LocalMaxima.StrictMaxReturned | PWG4/PartCorrDep/AliAnaInsideClusterInvariantMass.cxx:393-450 | A non-negative cluster cell that is strictly above every cluster neighbour and has energy at least 0.1 is always among the maxima. |
| LocalMaxima.MaximaContract | PWG4/PartCorrDep/AliAnaInsideClusterInvariantMass.cxx:439-455 | The same facts in the indexed form of the returned arrays. |
| LocalMaxima.GetNumberOfLocalMaxima | PWG4/PartCorrDep/AliAnaInsideClusterInvariantMass.cxx:366-457 | The array kill pass plus compaction returns exactly the reference maxima in cluster order, with count nMax at most the number of cells. The energies are the cells' amplitudes, each at least 0.1. No two maxima are neighbours, and every strict local maximum is included. |
| LocalMaxima.SuppressNeighbours | PWG4/PartCorrDep/AliAnaInsideClusterInvariantMass.cxx:393-437 | The nested kill loops leave the slot array that the reference pass computes. |
| LocalMaxima.KillPass | PWG4/PartCorrDep/AliAnaInsideClusterInvariantMass.cxx:402-435 | One outer step, with the outer cell read once before its inner loop, compares it against every live slot and leaves the slots of the reference inner pass. |
| LocalMaxima.CompactSurvivors | PWG4/PartCorrDep/AliAnaInsideClusterInvariantMass.cxx:439-450 | In-place compaction keeps the live slots of energy at least 0.1 in order, with their energies. |
| LocalMaxima.CompactSlot | PWG4/PartCorrDep/AliAnaInsideClusterInvariantMass.cxx:441-448 | One slot of the compaction: the slot is copied before the 0.1 test, and only a live survivor of at least 0.1 advances the count, so the front of the array stays the reference compaction of the slots seen so far. |
| LocalMaxima.MaximaDependOnOrder | PWG4/PartCorrDep/AliAnaInsideClusterInvariantMass.cxx:393-437 | The same three cells give two maxima in one order and one maximum in the reverse order. |
| LocalMaxima.CentralPeakIsOnlyMaximum | PWG4/PartCorrDep/AliAnaInsideClusterInvariantMass.cxx:393-450 | A peak between two lower neighbours is the only maximum. |
| LocalMaxima.DeadOuterKeepsKilling | PWG4/PartCorrDep/AliAnaInsideClusterInvariantMass.cxx:396-435 | A concrete cluster in which the outer cell dies against its first neighbour and, still using the energy read before its inner loop, kills its second neighbour. |
| Seeds.ScanHighest | PWG4/PartCorrDep/AliAnaInsideClusterInvariantMass.cxx:654-663 | A scan with strict `>` from a best energy of 0 finds nothing exactly when no eligible entry is positive. Otherwise it finds the first position of the highest positive energy. |
| Seeds.HighestId | PWG4/PartCorrDep/AliAnaInsideClusterInvariantMass.cxx:627-637 | The scan reports the id of the first highest positive eligible entry, or -1. |
| Seeds.FirstHighestUnique | PWG4/PartCorrDep/AliAnaInsideClusterInvariantMass.cxx:654-663 | The first highest positive eligible position is unique, so the seed the scan reports is determined by the list alone. |
| Seeds.SelectSeeds | PWG4/PartCorrDep/AliAnaInsideClusterInvariantMass.cxx:619-666 | Two maxima give both, in list order. One maximum gives it plus the first highest positive-energy cluster cell with a different id, or -1. Three or more give the first highest maximum plus the first highest of the others, or -1. Seed 2 differs from seed 1 whenever it is not -1 and the maxima are distinct. |
| Seeds.SeedsFromMaxima | PWG4/PartCorrDep/AliAnaInsideClusterInvariantMass.cxx:619-666 | For distinct maxima with positive energies: seed 1 is a maximum. With at least two maxima, seed 2 is another maximum. With one, seed 2 is -1 or a cluster cell. |
| Split.Scan | PWG4/PartCorrDep/AliAnaInsideClusterInvariantMass.cxx:805-825 | One pass keeps the pool size. Every claim removes one live slot and adds one cell to the sub-cluster. `added` is set exactly when something was claimed. Which slots a pass claims is stated by `Split.ScanSweeps`. |
| Split.ScanSweeps | PWG4/PartCorrDep/AliAnaInsideClusterInvariantMass.cxx:803-823 | A pass from slot i kills exactly the slots from i on whose cells are claimable from the front, and it appends exactly those cells, in pool order, to the sub-cluster. The result is characterised by the independent definitions `Sweep` (the pool) and `ClaimableIn` (a filter). |
| Split.GrowExtends | PWG4/PartCorrDep/AliAnaInsideClusterInvariantMass.cxx:796-827 | A growth only appends: the list it was given is a prefix of the grown list. |
| Split.GrowClaimsFront | PWG4/PartCorrDep/AliAnaInsideClusterInvariantMass.cxx:796-827 | Every pool cell claimable from the list's last cell when a growth starts ends up in the grown list. |
| Split.SplitClaimsSeedNeighbours | PWG4/PartCorrDep/AliAnaInsideClusterInvariantMass.cxx:796-874 | Growth 1 claims every cluster cell that neighbours seed 1 and lies strictly below it, except seed 2. Growth 2 claims every such cell of seed 2 among the slots growth 1 left. |
| Split.Grow | PWG4/PartCorrDep/AliAnaInsideClusterInvariantMass.cxx:795-827 | A growth keeps the pool size, never shrinks the list, and trades live slots one for one against claimed cells, which is also why it terminates. That it stops only when nothing is left to claim is stated by `Split.GrowStops`. |
| Split.ScanClaimsNothing | PWG4/PartCorrDep/AliAnaInsideClusterInvariantMass.cxx:805-825 | A pass leaves `added` false exactly when no slot it visits holds a cell claimable from the front, and such a pass changes neither the pool nor the list. |
| Split.GrowStops | PWG4/PartCorrDep/AliAnaInsideClusterInvariantMass.cxx:796-827 | When the `while (added)` loop ends, no slot left in the pool holds a cell claimable from the last claimed cell. |
| Split.StoppedComplete | PWG4/PartCorrDep/AliAnaInsideClusterInvariantMass.cxx:796-827 | A finished growth accounts for every slot it started from: its cell joined the list after the seed, or it is still in the pool and cannot be claimed from the last claimed cell. |
| Split.SplitStops | PWG4/PartCorrDep/AliAnaInsideClusterInvariantMass.cxx:796-874 | Both growths are complete: each cell given to growth 1 joined sub-cluster 1 or stayed in the pool unclaimable from its last cell; each slot growth 1 left joined sub-cluster 2 or stayed unclaimable from that list's last cell. |
| Split.FirstGrowthStops | PWG4/PartCorrDep/AliAnaInsideClusterInvariantMass.cxx:796-827 | Growth 1 is complete over the cluster, with seed 2 excluded. |
| Split.SecondGrowthStops | PWG4/PartCorrDep/AliAnaInsideClusterInvariantMass.cxx:843-874 | Growth 2 is complete over the pool growth 1 left. |
| Split.GrowKeepsInv | PWG4/PartCorrDep/AliAnaInsideClusterInvariantMass.cxx:796-827 | The growth invariant is preserved. The pool only loses slots and the seed stays first. The energy is the sum over the list. Every claimed cell is a live pool cell strictly below the seed and not the excluded id. Every dead slot was claimed. With distinct ids, no cell is claimed twice. |
| Split.SplitBounded | PWG4/PartCorrDep/AliAnaInsideClusterInvariantMass.cxx:767-880 | For safe seeds, the two growths of `Split` give lists that hold between 1 and ncells entries, so neither array is written past its end. Each list starts with its seed. Every later member is a cluster cell strictly below its seed and neighbours an earlier, strictly higher member of its list, and seed 2 never joins sub-cluster 1. Each growth is complete. It claims every cell it was given that is claimable from its seed. A cell it was given that did not join its list is still in the pool and cannot be claimed from the list's last cell. e1 and e2 are the energy sums over the lists. |
| Split.SplitConnected | PWG4/PartCorrDep/AliAnaInsideClusterInvariantMass.cxx:796-874 | Each member after the seed neighbours an earlier member of its own list and lies strictly below it: the front that claimed it. Fronts therefore fall strictly along every chain of claims. |
| Split.GrowConnected | PWG4/PartCorrDep/AliAnaInsideClusterInvariantMass.cxx:796-827 | Every pass of one growth starts from the last claimed cell, so the grown list stays connected. |
| Split.ScanConnected | PWG4/PartCorrDep/AliAnaInsideClusterInvariantMass.cxx:805-825 | A pass from a front in the list only adds neighbours of that front that lie strictly below it. |
| Split.SplitDisjoint | PWG4/PartCorrDep/AliAnaInsideClusterInvariantMass.cxx:805-872 | With distinct ids, each list is duplicate-free and no non-seed cell joins both lists. If the seeds differ and seed 2 is not above seed 1, the lists are fully disjoint. |
| Split.SplitEnergy | PWG4/PartCorrDep/AliAnaInsideClusterInvariantMass.cxx:767-880 | The array implementation returns the reference split: 1 <= ncells1, ncells2 <= ncells, the seeds come first, and e1, e2 are the sums over the lists. |
| Split.GrowPass | PWG4/PartCorrDep/AliAnaInsideClusterInvariantMass.cxx:785-827 | One growth loop on the shared pool array computes the reference growth. |
| Split.ScanPass | PWG4/PartCorrDep/AliAnaInsideClusterInvariantMass.cxx:805-825 | One cell loop on the arrays computes the reference pass. |
| Split.ScanSlot | PWG4/PartCorrDep/AliAnaInsideClusterInvariantMass.cxx:807-822 | One slot of the cell loop: a claimable cell moves from the pool to the end of the sub-cluster list as in the reference claim step, and the list never outgrows its array; any other slot changes nothing. |
| Split.EarlierClaimsNeverExpand | PWG4/PartCorrDep/AliAnaInsideClusterInvariantMass.cxx:796-827 | A concrete cluster in which a cell on a strictly downhill path from seed 1 is never claimed, because only the last-claimed cell expands. |
| Split.SeedOneClaimedBySecondGrowth | PWG4/PartCorrDep/AliAnaInsideClusterInvariantMass.cxx:852-872 | A concrete cluster, whose seeds are the ones the chain picks, in which pass 2 claims seed 1, so it sits in both sub-clusters. |
| Classify.Analysed | PWG4/PartCorrDep/AliAnaInsideClusterInvariantMass.cxx:538 | A cluster is analysed exactly when its energy is within range or it has at least the minimum number of cells. |
| Classify.AnalysedEitherWay | PWG4/PartCorrDep/AliAnaInsideClusterInvariantMass.cxx:538 | Enough cells admit a cluster of any energy. An in-range energy admits a cluster of any size. Failing both rejects it. |
| Classify.DefaultCellThreshold | PWG4/PartCorrDep/AliAnaInsideClusterInvariantMass.cxx:488-499 | With the default minimum of 4 cells of `DefaultConfig`, applied by the test at line 538, an out-of-range cluster with 3 cells is dropped and one with 4 is kept. |
| Classify.DefaultShapeCut | PWG4/PartCorrDep/AliAnaInsideClusterInvariantMass.cxx:488-499 | With the defaults of `DefaultConfig`, the shape cut `PassesShapeCut` (line 608) keeps exactly the clusters with l0 of at least 0.26. |
| Classify.Bucket | PWG4/PartCorrDep/AliAnaInsideClusterInvariantMass.cxx:554-556 | The bucket is One, Two or Many exactly when nMax is 1, 2 or at least 3. |
| Classify.MassLabel | PWG4/PartCorrDep/AliAnaInsideClusterInvariantMass.cxx:679-681 | The label is the first of conversion, pi0, eta whose open interval holds the mass, or none. Each label's exact condition is stated in both directions. |
| Classify.OverlapTakesPriority | PWG4/PartCorrDep/AliAnaInsideClusterInvariantMass.cxx:679-681 | A mass inside both the conversion and the pi0 window is labelled conversion. |
| Classify.DefaultWindowsDisjoint | PWG4/PartCorrDep/AliAnaInsideClusterInvariantMass.cxx:492-499 | With the default windows of `DefaultConfig`, each label holds exactly when the mass lies in that window's own interval. |
| Classify.DefaultBoundsUnlabelled | PWG4/PartCorrDep/AliAnaInsideClusterInvariantMass.cxx:492-499 | Masses on a default bound, or between windows, get no label. |
| Classify.MomentumEnergy | PWG4/PartCorrDep/AliAnaInsideClusterInvariantMass.cxx:176-180 | A seed's momentum uses the split energy when it is positive, and otherwise the seed cell's own amplitude. |
| Pipeline.SeedsSafe | PWG4/PartCorrDep/AliAnaInsideClusterInvariantMass.cxx:619-666 | The seeds chosen from the actual maxima are safe for the splitter. Seed 1 is a maximum. Seed 2 is a maximum, a cluster cell or -1, and is never seed 1 itself when the cluster's ids are distinct, or when there are not exactly two maxima. Two seeds that are both maxima are never neighbours. Unless there are exactly two maxima, seed 2 is not above seed 1. With one maximum, seed 1 is a highest cell of the cluster, so seed 2 is the second highest cell the source's comment at line 628 names. |
| Pipeline.SeedsOfOneMaximum | PWG4/PartCorrDep/AliAnaInsideClusterInvariantMass.cxx:623-641 | With one maximum, seed 1 is that maximum and is at least as high as every cluster cell; seed 2 is a cluster cell or -1 and is not above seed 1. |
| Pipeline.SplitFacts | PWG4/PartCorrDep/AliAnaInsideClusterInvariantMass.cxx:767-880 | The facts of `Split.SplitBounded`, including connectivity and the completeness of both growths, in the form the chain uses. Disjointness is stated under distinct ids. |
| Pipeline.AnalyseCluster | PWG4/PartCorrDep/AliAnaInsideClusterInvariantMass.cxx:529-694 | Each outcome holds exactly under its gate: skipped by pre-selection, no maxima, shape-rejected, or reconstructed. A mass is formed only when `PassesShapeCut` holds (l0 >= cut, line 608) with at least one maximum. Seeds are safe, and two seeds of the Two bucket are not neighbours. The seeds are those `ClusterSeeds` chooses from the maxima (the rules of lines 619-666), and the two sub-clusters are exactly `Split.Split` of them, so every fact of `Pipeline.SplitFacts` applies. The sums are over the lists, and each list is connected. With one maximum, seed 1 is a highest cell of the cluster. Unless there are exactly two maxima, seed 2 is not above seed 1, and with distinct ids the sub-clusters are then disjoint. |
| Pipeline.AnalyseEvent | PWG4/PartCorrDep/AliAnaInsideClusterInvariantMass.cxx:529-549 | Clusters are analysed in order, each one as on its own. Only the last outcome can be "no maxima". |
| Pipeline.EventStopsAtNoMaxima | PWG4/PartCorrDep/AliAnaInsideClusterInvariantMass.cxx:545-550 | The event stops early only at a cluster without maxima: a shortened result always ends with "no maxima". |
| Pipeline.AnalyseClusterImpl | PWG4/PartCorrDep/AliAnaInsideClusterInvariantMass.cxx:529-674 | Running the array maxima finder and the array splitter gives the reference outcome, with safe seeds. |
| Pipeline.SlopeClusterSeeds | PWG4/PartCorrDep/AliAnaInsideClusterInvariantMass.cxx:393-450 | The cluster of Split.SeedOneClaimedBySecondGrowth has maxima [3, 0] in cluster order and seeds (3, 0), so the double claim happens on seeds the chain really picks. |

## Left out

- Histograms: booking, filling and output objects, plus `Print` and the
  analysis-cut string. These are output only.
- Monte-Carlo truth tagging (lines 562-573). It calls into a library that is
  not part of this model.
- EMCAL geometry and recalibration. They are the parameters `g` and `amp`.
  The vertex shift, `TLorentzVector` and `.M()` are folded into the
  `PairMass` parameter. Only the energy fall-back of `GetCellMomentum` is
  modelled.
- Floating point. Energies, masses and cuts are exact `real`s. `Float_t`
  rounding is not modelled.
- 32-bit `Int_t`. Cell ids and counts are unbounded integers; ids only pass
  through equality, sign and neighbour tests.
- The PHOS early return (line 527) and the calorimeter choice. Only EMCAL is
  modelled.
- The contents of `absIdList`/`maxEList` beyond the first nMax entries. They
  are left-over data the caller never reads.
- The minimum and maximum cluster energies. They come from the analysis base
  class and are fields of `Config`.
- Split.SplitEnergy: requires `SafeSeeds`. Seed 1 must be a cluster cell.
  Seed 2 must be a cluster cell or not above seed 1. This condition is
  sufficient, not exact: outside it the source can write past its sub-list
  arrays (for example, when a seed outside the cluster claims every cell),
  which the model cannot express, though some such seeds claim nothing and
  stay in bounds.
  `Pipeline.SeedsSafe` proves that the chain only ever passes such seeds.
- Pipeline.AnalyseCluster: requires that cluster ids are non-negative. It
  also requires that the amplitude looked up for the missing cell -1 is below
  the 0.1 seed threshold. Both hold for real clusters; the second is what
  makes a seed 2 of -1 harmless.
- Split.GrowPass, Split.ScanPass, Split.ScanSlot, LocalMaxima.SuppressNeighbours,
  LocalMaxima.KillPass, LocalMaxima.CompactSurvivors and LocalMaxima.CompactSlot: state their results over mutated or freshly
  allocated arrays. Their callers `SplitEnergy` and `GetNumberOfLocalMaxima`
  carry the same facts as plain values.

=== FILE: cells.dfy ===
/** Shared vocabulary of the cluster-splitting model: cell identifiers, the
    geometry and amplitude collaborators, and small facts about cell-id lists
    that use -1 as the "removed" marker. */
module Cells {

  datatype Option<T> = None | Some(value: T)

  /** Position of a cell: super-module and (row, column) inside it. */
  datatype CellIndex = CellIndex(sm: int, row: int, col: int)

  /** The geometry adapter: absolute cell id -> position. */
  type Geometry = int -> CellIndex

  /** The calibrated amplitude provider: absolute cell id -> recalibrated energy. */
  type Amplitude = int -> real

  /** Geometry of the worked examples: one row of super-module 0, cell id = column. */
  function RowGeometry(id: int): CellIndex { CellIndex(0, 0, id) }

  /** Marker written over a slot whose cell is dead or already claimed. */
  const NoCell: int := -1

  /** A slot still holds a cell when its id is non-negative. */
  predicate Live(id: int) { id >= 0 }

  /** Number of slots of `s` that still hold a cell. */
  function CountLive(s: seq<int>): (n: nat)
    ensures n <= |s|
  {
    if |s| == 0 then 0
    else CountLive(s[..|s| - 1]) + (if Live(s[|s| - 1]) then 1 else 0)
  }

  /** Removing one live slot lowers the live count by exactly one. */
  lemma {:induction false} CountLiveKill(s: seq<int>, i: nat)
    requires i < |s| && Live(s[i])
    ensures CountLive(s[i := NoCell]) == CountLive(s) - 1
    decreases |s|
  {
    var t := s[i := NoCell];
    var n := |s| - 1;
    if i < n {
      assert t[..n] == s[..n][i := NoCell];
      CountLiveKill(s[..n], i);
    } else {
      assert t[..n] == s[..n];
    }
  }

  /** A live slot means at least one live slot. */
  lemma {:induction false} CountLivePositive(s: seq<int>, i: nat)
    requires i < |s| && Live(s[i])
    ensures CountLive(s) >= 1
    decreases |s|
  {
    var n := |s| - 1;
    if i < n {
      CountLivePositive(s[..n], i);
    }
  }

  /** Sum of the calibrated energies of the cells of `ids`, in list order. */
  function SumE(ids: seq<int>, amp: Amplitude): real
  {
    if |ids| == 0 then 0.0 else SumE(ids[..|ids| - 1], amp) + amp(ids[|ids| - 1])
  }

  /** Appending one cell adds exactly its energy. */
  lemma SumEAppend(ids: seq<int>, x: int, amp: Amplitude)
    ensures SumE(ids + [x], amp) == SumE(ids, amp) + amp(x)
  {
    assert (ids + [x])[..|ids|] == ids;
  }

  /** The energies of the cells of `ids`, position by position. */
  function Energies(ids: seq<int>, amp: Amplitude): (es: seq<real>)
    ensures |es| == |ids| && forall k :: 0 <= k < |ids| ==> es[k] == amp(ids[k])
  {
    seq(|ids|, k requires 0 <= k < |ids| => amp(ids[k]))
  }

  /** No id occurs twice. */
  predicate Distinct(s: seq<int>)
  {
    forall p, q :: 0 <= p < |s| && 0 <= q < |s| && p != q ==> s[p] != s[q]
  }

  /** No live id occurs twice (the -1 markers may repeat). */
  predicate DistinctLive(s: seq<int>)
  {
    forall p, q :: 0 <= p < |s| && 0 <= q < |s| && p != q && Live(s[p]) ==> s[p] != s[q]
  }

  /** `b` is `a` with some slots overwritten by the -1 marker. */
  predicate Dies(a: seq<int>, b: seq<int>)
  {
    |a| == |b| && forall k :: 0 <= k < |a| ==> b[k] == a[k] || b[k] == NoCell
  }

  lemma DiesTrans(a: seq<int>, b: seq<int>, c: seq<int>)
    requires Dies(a, b) && Dies(b, c)
    ensures Dies(a, c)
  {
  }

  /** `xs` is `ys` with some elements left out, the rest kept in order. */
  predicate Subseq(xs: seq<int>, ys: seq<int>)
    decreases |ys|
  {
    |xs| == 0 ||
    (|ys| > 0 &&
     ((xs[|xs| - 1] == ys[|ys| - 1] && Subseq(xs[..|xs| - 1], ys[..|ys| - 1]))
      || Subseq(xs, ys[..|ys| - 1])))
  }

  /** A subsequence keeps only elements of the original, and is no longer. */
  lemma {:induction false} SubseqIncluded(xs: seq<int>, ys: seq<int>)
    requires Subseq(xs, ys)
    ensures |xs| <= |ys|
    ensures forall x :: x in xs ==> x in ys
    decreases |ys|
  {
    if |xs| == 0 {
    } else {
      var n := |ys| - 1;
      if xs[|xs| - 1] == ys[n] && Subseq(xs[..|xs| - 1], ys[..n]) {
        SubseqIncluded(xs[..|xs| - 1], ys[..n]);
        forall x | x in xs ensures x in ys {
          if x != xs[|xs| - 1] {
            assert x in xs[..|xs| - 1];
            assert x in ys[..n];
          }
        }
      } else {
        SubseqIncluded(xs, ys[..n]);
        forall x | x in xs ensures x in ys {
          assert x in ys[..n];
        }
      }
    }
  }

  /** A subsequence of a list without repetitions has none either. */
  lemma {:induction false} SubseqDistinct(xs: seq<int>, ys: seq<int>)
    requires Subseq(xs, ys) && Distinct(ys)
    ensures Distinct(xs)
    decreases |ys|
  {
    if |xs| == 0 {
    } else {
      var n := |ys| - 1;
      assert Distinct(ys[..n]);
      if xs[|xs| - 1] == ys[n] && Subseq(xs[..|xs| - 1], ys[..n]) {
        var init := xs[..|xs| - 1];
        SubseqDistinct(init, ys[..n]);
        SubseqIncluded(init, ys[..n]);
        assert ys[n] !in ys[..n];
        assert xs == init + [ys[n]];
      } else {
        SubseqDistinct(xs, ys[..n]);
      }
    }
  }
}

=== FILE: classify.dfy ===
/** Per-cluster gating and classification: the energy/size pre-selection, the
    local-maximum multiplicity bucket, the shower-shape cut, the invariant-mass
    window label, and the energy used for a seed cell's momentum. */
module Classify {
  import opened Cells

  /** Analysis cuts. The energy range comes from the generic analysis base and
      is a parameter; the minimum number of cells is a floating-point setting
      compared against the integer cell count. */
  datatype Config = Config(
    minEnergy: real, maxEnergy: real,
    m02Cut: real, minNCells: real,
    conMin: real, conMax: real,
    pi0Min: real, pi0Max: real,
    etaMin: real, etaMax: real)

  /** The parameter defaults, for a given energy range. */
  function DefaultConfig(minEnergy: real, maxEnergy: real): Config
  {
    Config(minEnergy, maxEnergy, 0.26, 4.0, 0.0, 0.05, 0.08, 0.20, 0.4, 0.6)
  }

  // ---------------------------------------------------------------------
  // Pre-selection.

  predicate InEnergyRange(cfg: Config, en: real)
  {
    cfg.minEnergy <= en <= cfg.maxEnergy
  }

  predicate EnoughCells(cfg: Config, nc: int)
  {
    nc as real >= cfg.minNCells
  }

  /** A cluster is dropped only when its energy is out of range AND it has too
      few cells; either condition alone does not drop it. */
  function Analysed(cfg: Config, en: real, nc: int): (b: bool)
    ensures b <==> InEnergyRange(cfg, en) || EnoughCells(cfg, nc)
  {
    !((en < cfg.minEnergy || en > cfg.maxEnergy) && (nc as real) < cfg.minNCells)
  }

  /** Enough cells admit a cluster of any energy, and an in-range energy admits
      a cluster of any size. */
  lemma AnalysedEitherWay(cfg: Config, en: real, nc: int)
    ensures EnoughCells(cfg, nc) ==> Analysed(cfg, en, nc)
    ensures InEnergyRange(cfg, en) ==> Analysed(cfg, en, nc)
    ensures !InEnergyRange(cfg, en) && !EnoughCells(cfg, nc) ==> !Analysed(cfg, en, nc)
  {
  }

  /** With the default minimum of 4 cells, a three-cell cluster out of the
      energy range is dropped and a four-cell one is kept. */
  lemma DefaultCellThreshold(minEnergy: real, maxEnergy: real, en: real)
    requires en > maxEnergy
    ensures !Analysed(DefaultConfig(minEnergy, maxEnergy), en, 3)
    ensures Analysed(DefaultConfig(minEnergy, maxEnergy), en, 4)
  {
  }

  // ---------------------------------------------------------------------
  // Multiplicity of local maxima.

  datatype Multiplicity = One | Two | Many

  /** Bucket of a positive number of local maxima: 1, 2, or 3 and more. */
  function Bucket(nMax: nat): (m: Multiplicity)
    requires nMax >= 1
    ensures m.One? <==> nMax == 1
    ensures m.Two? <==> nMax == 2
    ensures m.Many? <==> nMax >= 3
  {
    if nMax == 1 then One else if nMax == 2 then Two else Many
  }

  /** The shower-shape cut: the mass is only computed for elongated clusters. */
  predicate PassesShapeCut(cfg: Config, m02: real)
  {
    m02 >= cfg.m02Cut
  }

  /** The default shape cut keeps exactly the clusters with lambda_0^2 of at
      least 0.26. */
  lemma DefaultShapeCut(minEnergy: real, maxEnergy: real, m02: real)
    ensures PassesShapeCut(DefaultConfig(minEnergy, maxEnergy), m02) <==> m02 >= 0.26
  {
  }

  // ---------------------------------------------------------------------
  // Mass window.

  datatype Window = Conversion | Pi0 | Eta | NoWindow

  /** Open interval membership: neither bound belongs to the window. */
  predicate InOpen(x: real, lo: real, hi: real)
  {
    lo < x < hi
  }

  predicate InCon(cfg: Config, mass: real) { InOpen(mass, cfg.conMin, cfg.conMax) }
  predicate InPi0(cfg: Config, mass: real) { InOpen(mass, cfg.pi0Min, cfg.pi0Max) }
  predicate InEta(cfg: Config, mass: real) { InOpen(mass, cfg.etaMin, cfg.etaMax) }

  /** The first window, in the order conversion, pi0, eta, whose open interval
      holds the mass; NoWindow when none does. */
  function MassLabel(cfg: Config, mass: real): (w: Window)
    ensures w == Conversion <==> InCon(cfg, mass)
    ensures w == Pi0 <==> !InCon(cfg, mass) && InPi0(cfg, mass)
    ensures w == Eta <==> !InCon(cfg, mass) && !InPi0(cfg, mass) && InEta(cfg, mass)
    ensures w == NoWindow <==> !InCon(cfg, mass) && !InPi0(cfg, mass) && !InEta(cfg, mass)
  {
    if mass < cfg.conMax && mass > cfg.conMin then Conversion
    else if mass < cfg.pi0Max && mass > cfg.pi0Min then Pi0
    else if mass < cfg.etaMax && mass > cfg.etaMin then Eta
    else NoWindow
  }

  /** The default windows do not overlap, so the priority order never matters
      for them: the label is the window holding the mass. */
  lemma DefaultWindowsDisjoint(minEnergy: real, maxEnergy: real, mass: real)
    ensures var cfg := DefaultConfig(minEnergy, maxEnergy);
      && (MassLabel(cfg, mass) == Conversion <==> 0.0 < mass < 0.05)
      && (MassLabel(cfg, mass) == Pi0 <==> 0.08 < mass < 0.20)
      && (MassLabel(cfg, mass) == Eta <==> 0.4 < mass < 0.6)
  {
  }

  /** Masses exactly on a default bound, or in a gap between windows, get no
      label. */
  lemma DefaultBoundsUnlabelled(minEnergy: real, maxEnergy: real, mass: real)
    requires mass in {0.0, 0.05, 0.08, 0.20, 0.4, 0.6} || 0.20 <= mass <= 0.4 || 0.05 <= mass <= 0.08
    ensures MassLabel(DefaultConfig(minEnergy, maxEnergy), mass) == NoWindow
  {
  }

  /** When windows overlap, a mass in both gets the earlier label. */
  lemma OverlapTakesPriority(cfg: Config, mass: real)
    requires InCon(cfg, mass) && InPi0(cfg, mass)
    ensures MassLabel(cfg, mass) == Conversion
  {
  }

  // ---------------------------------------------------------------------
  // Energy of a seed cell's momentum.

  /** The split energy when it is positive, otherwise the amplitude of the
      seed cell alone. */
  function MomentumEnergy(en: real, id: int, amp: Amplitude): (r: real)
    ensures r == en || r == amp(id)
    ensures en > 0.0 ==> r == en
    ensures en <= 0.0 ==> r == amp(id)
  {
    if en <= 0.0 then amp(id) else en
  }
}

=== FILE: maxima.dfy ===
/** Local-maxima suppression of GetNumberOfLocalMaxima. Every live slot i, in
    cluster order, is compared with every live slot j; of two neighbours the
    lower one is overwritten by -1 (on a tie the slot i of the outer loop dies).
    Survivors are then compacted in cluster order, dropping those below the seed
    energy floor. */
module LocalMaxima {
  import opened Cells
  import opened Neighbours

  /** Near-degeneracy threshold of the source, fixed to zero there. */
  const LocMaxCut: real := 0.0

  /** Minimum energy of a listed maximum. */
  const MinSeedEnergy: real := 0.1

  /** Which of the two compared neighbours dies: (outer slot, inner slot), for
      energies e1 of the outer and e2 of the inner cell. */
  function KillOrder(e1: real, e2: real): (bool, bool)
  {
    if e1 > e2 then (e1 < e2 + LocMaxCut, true) else (true, e1 > e2 - LocMaxCut)
  }

  /** With a zero threshold exactly one of two compared neighbours dies: the
      inner one when strictly lower, otherwise the outer one. */
  lemma KillOrderStrict(e1: real, e2: real)
    ensures KillOrder(e1, e2).1 <==> e1 > e2
    ensures KillOrder(e1, e2).0 <==> !(e1 > e2)
  {
  }

  /** One inner-loop step: slot j compared against the outer cell `id1`, which
      was read from slot i when the outer step began. */
  function Compare(a: seq<int>, i: nat, id1: int, j: nat, g: Geometry, amp: Amplitude): (r: seq<int>)
    requires i < |a| && j < |a|
    ensures |r| == |a|
  {
    if a[j] == NoCell || !AreNeighbours(id1, a[j], g) then a
    else
      var kill := KillOrder(amp(id1), amp(a[j]));
      var a1 := if kill.1 then a[j := NoCell] else a;
      if kill.0 then a1[i := NoCell] else a1
  }

  /** Inner loop from slot j on. */
  function InnerScan(a: seq<int>, i: nat, id1: int, j: nat, g: Geometry, amp: Amplitude): (r: seq<int>)
    requires i < |a| && j <= |a|
    ensures |r| == |a|
    decreases |a| - j
  {
    if j == |a| then a else InnerScan(Compare(a, i, id1, j, g, amp), i, id1, j + 1, g, amp)
  }

  /** Outer loop from slot i on; a slot holding a negative id is skipped. */
  function OuterScan(a: seq<int>, i: nat, g: Geometry, amp: Amplitude): (r: seq<int>)
    requires i <= |a|
    ensures |r| == |a|
    decreases |a| - i
  {
    if i == |a| then a
    else if a[i] >= 0 then OuterScan(InnerScan(a, i, a[i], 0, g, amp), i + 1, g, amp)
    else OuterScan(a, i + 1, g, amp)
  }

  /** A surviving slot is listed when its energy reaches the seed floor. */
  predicate Listed(id: int, amp: Amplitude)
  {
    id >= 0 && !(amp(id) < MinSeedEnergy)
  }

  /** The compaction loop: listed survivors, in slot order. */
  function Compact(a: seq<int>, amp: Amplitude): seq<int>
  {
    if |a| == 0 then []
    else Compact(a[..|a| - 1], amp) + (if Listed(a[|a| - 1], amp) then [a[|a| - 1]] else [])
  }

  /** The maxima list the source returns for a cluster with cell ids `cells`. */
  function Maxima(cells: seq<int>, g: Geometry, amp: Amplitude): seq<int>
  {
    Compact(OuterScan(cells, 0, g, amp), amp)
  }

  // ---------------------------------------------------------------------
  // Slots only ever die.

  lemma CompareDies(a: seq<int>, i: nat, id1: int, j: nat, g: Geometry, amp: Amplitude)
    requires i < |a| && j < |a|
    ensures Dies(a, Compare(a, i, id1, j, g, amp))
  {
  }

  lemma {:induction false} InnerScanDies(a: seq<int>, i: nat, id1: int, j: nat, g: Geometry, amp: Amplitude)
    requires i < |a| && j <= |a|
    ensures Dies(a, InnerScan(a, i, id1, j, g, amp))
    decreases |a| - j
  {
    if j < |a| {
      var b := Compare(a, i, id1, j, g, amp);
      CompareDies(a, i, id1, j, g, amp);
      InnerScanDies(b, i, id1, j + 1, g, amp);
      DiesTrans(a, b, InnerScan(b, i, id1, j + 1, g, amp));
    }
  }

  lemma {:induction false} OuterScanDies(a: seq<int>, i: nat, g: Geometry, amp: Amplitude)
    requires i <= |a|
    ensures Dies(a, OuterScan(a, i, g, amp))
    decreases |a| - i
  {
    if i < |a| {
      if a[i] >= 0 {
        var b := InnerScan(a, i, a[i], 0, g, amp);
        InnerScanDies(a, i, a[i], 0, g, amp);
        OuterScanDies(b, i + 1, g, amp);
        DiesTrans(a, b, OuterScan(b, i + 1, g, amp));
      } else {
        OuterScanDies(a, i + 1, g, amp);
      }
    }
  }

  // ---------------------------------------------------------------------
  // No two survivors are neighbours.

  /** Every live slot before i has no live neighbour anywhere. */
  predicate Settled(a: seq<int>, i: nat, g: Geometry)
  {
    forall p, q :: 0 <= p < i && p < |a| && 0 <= q < |a| && a[p] >= 0 && a[q] != NoCell ==>
      !AreNeighbours(a[p], a[q], g)
  }

  /** While slot i is live, it has no live neighbour before j. */
  predicate InnerSettled(a: seq<int>, i: nat, id1: int, j: nat, g: Geometry)
    requires i < |a|
  {
    a[i] >= 0 ==> a[i] == id1 && forall q :: 0 <= q < j && q < |a| && a[q] != NoCell ==> !AreNeighbours(id1, a[q], g)
  }

  lemma {:induction false} InnerScanSettles(a: seq<int>, i: nat, id1: int, j: nat, g: Geometry, amp: Amplitude)
    requires i < |a| && j <= |a|
    requires InnerSettled(a, i, id1, j, g)
    ensures InnerSettled(InnerScan(a, i, id1, j, g, amp), i, id1, |a|, g)
    decreases |a| - j
  {
    if j < |a| {
      var b := Compare(a, i, id1, j, g, amp);
      CompareDies(a, i, id1, j, g, amp);
      KillOrderStrict(amp(id1), amp(a[j]));
      assert InnerSettled(b, i, id1, j + 1, g);
      InnerScanSettles(b, i, id1, j + 1, g, amp);
    }
  }

  /** Dying keeps a settled prefix settled. */
  lemma SettledAfterDying(a: seq<int>, b: seq<int>, i: nat, g: Geometry)
    requires Dies(a, b) && Settled(a, i, g)
    ensures Settled(b, i, g)
  {
    forall p, q | 0 <= p < i && p < |b| && 0 <= q < |b| && b[p] >= 0 && b[q] != NoCell
      ensures !AreNeighbours(b[p], b[q], g)
    {
      assert a[p] == b[p] && a[q] == b[q];
    }
  }

  lemma {:induction false} OuterScanSettles(a: seq<int>, i: nat, g: Geometry, amp: Amplitude)
    requires i <= |a| && Settled(a, i, g)
    ensures Settled(OuterScan(a, i, g, amp), |a|, g)
    decreases |a| - i
  {
    if i < |a| {
      if a[i] >= 0 {
        var b := InnerScan(a, i, a[i], 0, g, amp);
        InnerScanDies(a, i, a[i], 0, g, amp);
        InnerScanSettles(a, i, a[i], 0, g, amp);
        SettledAfterDying(a, b, i, g);
        assert Settled(b, i + 1, g);
        OuterScanSettles(b, i + 1, g, amp);
      } else {
        assert Settled(a, i + 1, g);
        OuterScanSettles(a, i + 1, g, amp);
      }
    }
  }

  // ---------------------------------------------------------------------
  // A strict local maximum survives.

  /** Cell k is higher than every cell of the cluster that neighbours it, in
      either argument order. */
  predicate StrictMax(cells: seq<int>, k: nat, g: Geometry, amp: Amplitude)
    requires k < |cells|
  {
    forall m :: 0 <= m < |cells| && (AreNeighbours(cells[k], cells[m], g) || AreNeighbours(cells[m], cells[k], g)) ==>
      amp(cells[m]) < amp(cells[k])
  }

  /** One comparison spares the strict maximum in slot k: it only loses to a
      strictly higher neighbour, and it has none. */
  lemma CompareKeepsMax(cells: seq<int>, a: seq<int>, i: nat, j: nat, k: nat, g: Geometry, amp: Amplitude)
    requires Dies(cells, a) && i < |a| && j < |a| && k < |a|
    requires StrictMax(cells, k, g, amp) && a[k] == cells[k] && (a[i] == cells[i] || i != k)
    ensures Compare(a, i, cells[i], j, g, amp)[k] == cells[k]
    ensures Dies(cells, Compare(a, i, cells[i], j, g, amp))
  {
    var b := Compare(a, i, cells[i], j, g, amp);
    CompareDies(a, i, cells[i], j, g, amp);
    KillOrderStrict(amp(cells[i]), amp(a[j]));
    if a[j] != NoCell {
      assert a[j] == cells[j];
    }
    DiesTrans(cells, a, b);
  }

  lemma {:induction false} InnerScanKeepsMax(cells: seq<int>, a: seq<int>, i: nat, j: nat, k: nat, g: Geometry, amp: Amplitude)
    requires Dies(cells, a) && i < |a| && j <= |a| && k < |a|
    requires a[i] == cells[i] && StrictMax(cells, k, g, amp) && a[k] == cells[k]
    ensures InnerScan(a, i, cells[i], j, g, amp)[k] == cells[k]
    decreases |a| - j
  {
    if j < |a| {
      var b := Compare(a, i, cells[i], j, g, amp);
      CompareKeepsMax(cells, a, i, j, k, g, amp);
      if b[i] == cells[i] {
        InnerScanKeepsMax(cells, b, i, j + 1, k, g, amp);
      } else {
        // slot i died, so it is not slot k, and the outer cell id read
        // before is still the one compared
        InnerScanKeepsMaxDeadOuter(cells, b, i, j + 1, k, g, amp);
      }
    }
  }

  /** Continuation of the inner loop after the outer slot died: the outer cell
      id is still the one read before, so the same argument applies. */
  lemma {:induction false} InnerScanKeepsMaxDeadOuter(cells: seq<int>, a: seq<int>, i: nat, j: nat, k: nat, g: Geometry, amp: Amplitude)
    requires Dies(cells, a) && i < |a| && j <= |a| && k < |a| && i != k
    requires StrictMax(cells, k, g, amp) && a[k] == cells[k]
    ensures InnerScan(a, i, cells[i], j, g, amp)[k] == cells[k]
    decreases |a| - j
  {
    if j < |a| {
      CompareKeepsMax(cells, a, i, j, k, g, amp);
      InnerScanKeepsMaxDeadOuter(cells, Compare(a, i, cells[i], j, g, amp), i, j + 1, k, g, amp);
    }
  }

  lemma {:induction false} OuterScanKeepsMax(cells: seq<int>, a: seq<int>, i: nat, k: nat, g: Geometry, amp: Amplitude)
    requires Dies(cells, a) && i <= |a| && k < |a|
    requires StrictMax(cells, k, g, amp) && a[k] == cells[k]
    ensures OuterScan(a, i, g, amp)[k] == cells[k]
    decreases |a| - i
  {
    if i < |a| {
      if a[i] >= 0 {
        assert a[i] == cells[i];
        var b := InnerScan(a, i, a[i], 0, g, amp);
        InnerScanDies(a, i, a[i], 0, g, amp);
        InnerScanKeepsMax(cells, a, i, 0, k, g, amp);
        DiesTrans(cells, a, b);
        OuterScanKeepsMax(cells, b, i + 1, k, g, amp);
      } else {
        OuterScanKeepsMax(cells, a, i + 1, k, g, amp);
      }
    }
  }

  // ---------------------------------------------------------------------
  // A highest cell of the cluster survives.

  /** Cell k is as high as every cell of the cluster. */
  predicate IsTop(cells: seq<int>, k: nat, amp: Amplitude)
    requires k < |cells|
  {
    forall m :: 0 <= m < |cells| ==> amp(cells[m]) <= amp(cells[k])
  }

  /** A position of a highest cell. */
  function TopIndex(cells: seq<int>, amp: Amplitude): (k: nat)
    requires |cells| > 0
    ensures k < |cells| && IsTop(cells, k, amp)
  {
    if |cells| == 1 then 0
    else
      var k := TopIndex(cells[..|cells| - 1], amp);
      assert forall m :: 0 <= m < |cells| - 1 ==> cells[m] == cells[..|cells| - 1][m];
      if amp(cells[|cells| - 1]) > amp(cells[k]) then |cells| - 1 else k
  }

  /** One comparison leaves some slot holding a highest cell alive. That slot
      can only lose to a neighbour at least as high, which is then spared and
      is itself a highest cell. */
  lemma CompareKeepsTop(cells: seq<int>, a: seq<int>, i: nat, j: nat, k: nat, g: Geometry, amp: Amplitude)
    returns (k2: nat)
    requires Dies(cells, a) && i < |a| && j < |a| && k < |a|
    requires a[k] == cells[k] && a[k] != NoCell && IsTop(cells, k, amp)
    ensures k2 < |a| && IsTop(cells, k2, amp)
    ensures Compare(a, i, cells[i], j, g, amp)[k2] == cells[k2] && cells[k2] != NoCell
    ensures Dies(cells, Compare(a, i, cells[i], j, g, amp))
  {
    var b := Compare(a, i, cells[i], j, g, amp);
    CompareDies(a, i, cells[i], j, g, amp);
    DiesTrans(cells, a, b);
    k2 := k;
    if a[j] != NoCell && AreNeighbours(cells[i], a[j], g) {
      assert a[j] == cells[j];
      KillOrderStrict(amp(cells[i]), amp(a[j]));
      if k == i && !(amp(cells[i]) > amp(a[j])) {
        k2 := j;
      }
    }
  }

  lemma {:induction false} InnerScanKeepsTop(cells: seq<int>, a: seq<int>, i: nat, j: nat, k: nat, g: Geometry, amp: Amplitude)
    returns (k2: nat)
    requires Dies(cells, a) && i < |a| && j <= |a| && k < |a|
    requires a[k] == cells[k] && a[k] != NoCell && IsTop(cells, k, amp)
    ensures k2 < |a| && IsTop(cells, k2, amp)
    ensures InnerScan(a, i, cells[i], j, g, amp)[k2] == cells[k2] && cells[k2] != NoCell
    ensures Dies(cells, InnerScan(a, i, cells[i], j, g, amp))
    decreases |a| - j
  {
    if j == |a| {
      k2 := k;
    } else {
      var k1 := CompareKeepsTop(cells, a, i, j, k, g, amp);
      k2 := InnerScanKeepsTop(cells, Compare(a, i, cells[i], j, g, amp), i, j + 1, k1, g, amp);
    }
  }

  lemma {:induction false} OuterScanKeepsTop(cells: seq<int>, a: seq<int>, i: nat, k: nat, g: Geometry, amp: Amplitude)
    returns (k2: nat)
    requires Dies(cells, a) && i <= |a| && k < |a|
    requires a[k] == cells[k] && a[k] != NoCell && IsTop(cells, k, amp)
    ensures k2 < |a| && IsTop(cells, k2, amp)
    ensures OuterScan(a, i, g, amp)[k2] == cells[k2] && cells[k2] != NoCell
    decreases |a| - i
  {
    if i == |a| {
      k2 := k;
    } else if a[i] >= 0 {
      assert a[i] == cells[i];
      var k1 := InnerScanKeepsTop(cells, a, i, 0, k, g, amp);
      k2 := OuterScanKeepsTop(cells, InnerScan(a, i, cells[i], 0, g, amp), i + 1, k1, g, amp);
    } else {
      k2 := OuterScanKeepsTop(cells, a, i + 1, k, g, amp);
    }
  }

  // ---------------------------------------------------------------------
  // Compaction.

  lemma {:induction false} CompactListed(a: seq<int>, amp: Amplitude)
    ensures forall x :: x in Compact(a, amp) ==> x in a && Listed(x, amp)
    ensures |Compact(a, amp)| <= |a|
  {
    if |a| > 0 {
      var n := |a| - 1;
      CompactListed(a[..n], amp);
      forall x | x in Compact(a, amp) ensures x in a && Listed(x, amp) {
        if x in Compact(a[..n], amp) {
          assert x in a[..n];
        }
      }
    }
  }

  lemma {:induction false} CompactContains(a: seq<int>, k: nat, amp: Amplitude)
    requires k < |a| && Listed(a[k], amp)
    ensures a[k] in Compact(a, amp)
  {
    var n := |a| - 1;
    if k < n {
      CompactContains(a[..n], k, amp);
    }
  }

  /** Compaction keeps listed slots in order: a subsequence of the original ids. */
  lemma {:induction false} CompactSubseq(cells: seq<int>, a: seq<int>, amp: Amplitude)
    requires Dies(cells, a)
    ensures Subseq(Compact(a, amp), cells)
  {
    if |a| > 0 {
      var n := |a| - 1;
      CompactSubseq(cells[..n], a[..n], amp);
      var c := Compact(a, amp);
      if Listed(a[n], amp) {
        assert a[n] == cells[n];
        assert c[..|c| - 1] == Compact(a[..n], amp);
        assert c[|c| - 1] == cells[|cells| - 1];
        assert cells[..|cells| - 1] == cells[..n];
      } else {
        assert c == Compact(a[..n], amp);
        assert cells[..|cells| - 1] == cells[..n];
      }
    }
  }

  // ---------------------------------------------------------------------
  // The properties of the returned list.

  /** The returned maxima are listed cluster cells (id >= 0, energy >= 0.1),
      in cluster order, no more of them than cells; distinct cells give
      distinct maxima. */
  lemma MaximaListed(cells: seq<int>, g: Geometry, amp: Amplitude)
    ensures |Maxima(cells, g, amp)| <= |cells|
    ensures forall x :: x in Maxima(cells, g, amp) ==> x in cells && x >= 0 && amp(x) >= MinSeedEnergy
    ensures Subseq(Maxima(cells, g, amp), cells)
    ensures Distinct(cells) ==> Distinct(Maxima(cells, g, amp))
  {
    var fin := OuterScan(cells, 0, g, amp);
    OuterScanDies(cells, 0, g, amp);
    CompactListed(fin, amp);
    CompactSubseq(cells, fin, amp);
    SubseqIncluded(Maxima(cells, g, amp), cells);
    if Distinct(cells) {
      SubseqDistinct(Maxima(cells, g, amp), cells);
    }
  }

  /** No two returned maxima are neighbours, in either argument order: of any
      two live neighbours compared, one dies. */
  lemma MaximaNotNeighbours(cells: seq<int>, g: Geometry, amp: Amplitude)
    ensures forall x, y :: x in Maxima(cells, g, amp) && y in Maxima(cells, g, amp) ==> !AreNeighbours(x, y, g)
  {
    var fin := OuterScan(cells, 0, g, amp);
    OuterScanSettles(cells, 0, g, amp);
    OuterScanDies(cells, 0, g, amp);
    CompactListed(fin, amp);
    forall x, y | x in Maxima(cells, g, amp) && y in Maxima(cells, g, amp) ensures !AreNeighbours(x, y, g) {
      var p :| 0 <= p < |fin| && fin[p] == x;
      var q :| 0 <= q < |fin| && fin[q] == y;
    }
  }

  /** A cluster cell strictly above every neighbour in the cluster, with a
      non-negative id and energy at least 0.1, is always returned. */
  lemma StrictMaxReturned(cells: seq<int>, k: nat, g: Geometry, amp: Amplitude)
    requires k < |cells| && cells[k] >= 0 && amp(cells[k]) >= MinSeedEnergy
    requires StrictMax(cells, k, g, amp)
    ensures cells[k] in Maxima(cells, g, amp)
  {
    var fin := OuterScan(cells, 0, g, amp);
    OuterScanDies(cells, 0, g, amp);
    OuterScanKeepsMax(cells, cells, 0, k, g, amp);
    CompactContains(fin, k, amp);
  }

  /** With non-negative ids, the cluster's highest energy is always among the
      maxima when it reaches 0.1: a top cell, or another cell of equal energy
      that beat it on a tie, survives every comparison. */
  lemma HighestReturned(cells: seq<int>, k: nat, g: Geometry, amp: Amplitude) returns (x: int)
    requires forall m :: 0 <= m < |cells| ==> Live(cells[m])
    requires k < |cells| && IsTop(cells, k, amp) && amp(cells[k]) >= MinSeedEnergy
    ensures x in Maxima(cells, g, amp) && amp(x) == amp(cells[k])
  {
    var fin := OuterScan(cells, 0, g, amp);
    var k2 := OuterScanKeepsTop(cells, cells, 0, k, g, amp);
    CompactContains(fin, k2, amp);
    x := cells[k2];
  }

  /** A single maximum is a highest cell of the cluster, so the "second
      highest" cell chosen next to it really is second. */
  lemma OneMaximumIsHighest(cells: seq<int>, g: Geometry, amp: Amplitude)
    requires forall m :: 0 <= m < |cells| ==> Live(cells[m])
    requires |Maxima(cells, g, amp)| == 1
    ensures forall m :: 0 <= m < |cells| ==> amp(cells[m]) <= amp(Maxima(cells, g, amp)[0])
  {
    var mx := Maxima(cells, g, amp);
    MaximaListed(cells, g, amp);
    assert mx[0] in mx;
    var t := TopIndex(cells, amp);
    var p :| 0 <= p < |cells| && cells[p] == mx[0];
    assert amp(cells[t]) >= amp(cells[p]) >= MinSeedEnergy;
    var x := HighestReturned(cells, t, g, amp);
    assert x == mx[0];
    assert IsTop(cells, t, amp);
  }

  // ---------------------------------------------------------------------
  // The imperative loop of the source, over an array of slots.

  /** GetNumberOfLocalMaxima: returns the number of maxima, their ids and their
      energies (the first nMax entries of absIdList and maxEList). */
  method GetNumberOfLocalMaxima(cells: seq<int>, g: Geometry, amp: Amplitude)
    returns (nMax: nat, absIds: seq<int>, maxEs: seq<real>)
    ensures absIds == Maxima(cells, g, amp) && maxEs == Energies(absIds, amp)
    ensures nMax == |absIds| <= |cells|
    ensures forall k :: 0 <= k < nMax ==> absIds[k] in cells && maxEs[k] >= MinSeedEnergy
    ensures Subseq(absIds, cells)
    ensures forall p, q :: 0 <= p < nMax && 0 <= q < nMax ==> !AreNeighbours(absIds[p], absIds[q], g)
    ensures forall k :: 0 <= k < |cells| && cells[k] >= 0 && amp(cells[k]) >= MinSeedEnergy && StrictMax(cells, k, g, amp) ==>
      cells[k] in absIds
  {
    var slots := SuppressNeighbours(cells, g, amp);
    var maxE;
    nMax, maxE := CompactSurvivors(slots, amp);
    absIds := slots[..nMax];
    maxEs := maxE[..nMax];
    MaximaContract(cells, g, amp);
  }

  /** The properties of `Maxima` in the indexed form the method states. */
  lemma MaximaContract(cells: seq<int>, g: Geometry, amp: Amplitude)
    ensures |Maxima(cells, g, amp)| <= |cells|
    ensures forall k :: 0 <= k < |Maxima(cells, g, amp)| ==>
      Maxima(cells, g, amp)[k] in cells && amp(Maxima(cells, g, amp)[k]) >= MinSeedEnergy
    ensures Subseq(Maxima(cells, g, amp), cells)
    ensures forall p, q :: 0 <= p < |Maxima(cells, g, amp)| && 0 <= q < |Maxima(cells, g, amp)| ==>
      !AreNeighbours(Maxima(cells, g, amp)[p], Maxima(cells, g, amp)[q], g)
    ensures forall k :: 0 <= k < |cells| && cells[k] >= 0 && amp(cells[k]) >= MinSeedEnergy && StrictMax(cells, k, g, amp) ==>
      cells[k] in Maxima(cells, g, amp)
  {
    var m := Maxima(cells, g, amp);
    MaximaListed(cells, g, amp);
    MaximaNotNeighbours(cells, g, amp);
    forall k | 0 <= k < |m| ensures m[k] in cells && amp(m[k]) >= MinSeedEnergy {
      var x := m[k];
      assert x in m;
      assert x in cells && x >= 0 && amp(x) >= MinSeedEnergy;
    }
    forall p, q | 0 <= p < |m| && 0 <= q < |m| ensures !AreNeighbours(m[p], m[q], g) {
      assert m[p] in m && m[q] in m;
    }
    forall k | 0 <= k < |cells| && cells[k] >= 0 && amp(cells[k]) >= MinSeedEnergy && StrictMax(cells, k, g, amp)
      ensures cells[k] in m
    {
      StrictMaxReturned(cells, k, g, amp);
    }
  }

  /** The pairwise kill loops, on a fresh copy of the cluster's ids. */
  method SuppressNeighbours(cells: seq<int>, g: Geometry, amp: Amplitude) returns (slots: array<int>)
    ensures fresh(slots) && slots[..] == OuterScan(cells, 0, g, amp)
  {
    var nCells := |cells|;
    slots := new int[nCells](k requires 0 <= k < nCells => cells[k]);
    ghost var killed := OuterScan(cells, 0, g, amp);
    assert slots[..] == cells;

    for i := 0 to nCells
      invariant OuterScan(slots[..], i, g, amp) == killed
    {
      if slots[i] >= 0 {
        ghost var before := slots[..];
        KillPass(slots, i, slots[i], g, amp);
        assert OuterScan(before, i, g, amp) == OuterScan(slots[..], i + 1, g, amp);
      }
    }
  }

  /** One outer step: slot i's cell `id1` against every slot. */
  method KillPass(slots: array<int>, i: nat, id1: int, g: Geometry, amp: Amplitude)
    modifies slots
    requires i < slots.Length
    ensures slots[..] == InnerScan(old(slots[..]), i, id1, 0, g, amp)
  {
    ghost var target := InnerScan(slots[..], i, id1, 0, g, amp);
    var en1 := amp(id1);
    for j := 0 to slots.Length
      invariant InnerScan(slots[..], i, id1, j, g, amp) == target
    {
      var id2 := slots[j];
      if id2 == NoCell {
        continue;
      }
      var en2 := amp(id2);
      if AreNeighbours(id1, id2, g) {
        var kill := KillOrder(en1, en2);
        if kill.1 {
          slots[j] := NoCell;
        }
        if kill.0 {
          slots[i] := NoCell;
        }
      }
    }
  }

  /** The compaction loop: listed survivors move to the front of `slots`, in slot
      order, and their energies to the front of the returned energy array. */
  method CompactSurvivors(slots: array<int>, amp: Amplitude) returns (n: nat, maxE: array<real>)
    modifies slots
    ensures fresh(maxE) && n <= slots.Length && n <= maxE.Length
    ensures slots[..n] == Compact(old(slots[..]), amp)
    ensures maxE[..n] == Energies(slots[..n], amp)
  {
    ghost var killed := slots[..];
    var nCells := slots.Length;
    maxE := new real[nCells];
    n := 0;
    for i := 0 to nCells
      invariant n <= i
      invariant slots[..n] == Compact(killed[..i], amp)
      invariant slots[i..] == killed[i..]
      invariant forall k :: 0 <= k < n ==> maxE[k] == amp(slots[k])
    {
      n := CompactSlot(slots, maxE, i, n, amp, killed);
    }
    assert killed[..nCells] == killed;
  }

  /** One slot of the compaction loop. The slot is copied to position n before
      the energy test, as in the source; only a survivor of at least 0.1 keeps
      its copy by advancing n. */
  method CompactSlot(slots: array<int>, maxE: array<real>, i: nat, n: nat, amp: Amplitude, ghost killed: seq<int>)
    returns (n1: nat)
    modifies slots, maxE
    requires i < slots.Length && slots.Length == maxE.Length && |killed| == slots.Length
    requires n <= i && slots[..n] == Compact(killed[..i], amp) && slots[i..] == killed[i..]
    requires forall k :: 0 <= k < n ==> maxE[k] == amp(slots[k])
    ensures n1 <= i + 1 && slots[..n1] == Compact(killed[..i + 1], amp) && slots[i + 1..] == killed[i + 1..]
    ensures forall k :: 0 <= k < n1 ==> maxE[k] == amp(slots[k])
  {
    assert killed[..i + 1][..i] == killed[..i];
    assert slots[i] == killed[i];
    n1 := n;
    if slots[i] >= 0 {
      slots[n] := slots[i];
      var en := amp(slots[i]);
      if en < MinSeedEnergy {
        return;
      }
      maxE[n] := en;
      n1 := n + 1;
    }
  }

  // ---------------------------------------------------------------------
  // Worked examples.

  /** Energies falling along the row: 3, 2, 1 for cells 0, 1, 2. */
  function FallingEnergy(id: int): real { (3 - id) as real }

  /** The result depends on cell order. With Z > Y > X, Z~Y, Y~X and Z, X apart:
      in order Z, Y, X the cell Z kills Y, and X then has no live higher
      neighbour, so X survives next to the higher Y; in order X, Y, Z only Z
      survives. */
  lemma MaximaDependOnOrder()
    ensures Maxima([0, 1, 2], RowGeometry, FallingEnergy) == [0, 2]
    ensures Maxima([2, 1, 0], RowGeometry, FallingEnergy) == [0]
  {
    FallingForward();
    FallingBackward();
  }

  lemma FallingForward()
    ensures Maxima([0, 1, 2], RowGeometry, FallingEnergy) == [0, 2]
  {
    var g, amp := RowGeometry, FallingEnergy;
    var a := [0, 1, 2];
    assert InnerScan(a, 0, 0, 0, g, amp) == [0, -1, 2];
    assert InnerScan([0, -1, 2], 2, 2, 0, g, amp) == [0, -1, 2];
    assert OuterScan(a, 0, g, amp) == [0, -1, 2];
    assert [0, -1, 2][..2] == [0, -1] && [0, -1][..1] == [0] && [0][..0] == [];
    assert Compact([0, -1, 2], amp) == [0, 2];
  }

  lemma FallingBackward()
    ensures Maxima([2, 1, 0], RowGeometry, FallingEnergy) == [0]
  {
    var g, amp := RowGeometry, FallingEnergy;
    var b := [2, 1, 0];
    assert InnerScan(b, 0, 2, 0, g, amp) == [-1, 1, 0];
    assert InnerScan([-1, 1, 0], 1, 1, 0, g, amp) == [-1, -1, 0];
    assert InnerScan([-1, -1, 0], 2, 0, 0, g, amp) == [-1, -1, 0];
    assert OuterScan(b, 0, g, amp) == [-1, -1, 0];
    assert [-1, -1, 0][..2] == [-1, -1] && [-1, -1][..1] == [-1] && [-1][..0] == [];
    assert Compact([-1, -1, 0], amp) == [0];
  }

  /** A cell killed while it is the outer cell goes on comparing, with the
      energy read before its inner loop: in order Y, Z, X (Z > Y > X, Z~Y,
      Y~X), Y dies against Z and still kills X afterwards, so only Z is left. */
  lemma DeadOuterKeepsKilling()
    ensures Compare([1, 0, 2], 0, 1, 1, RowGeometry, FallingEnergy) == [-1, 0, 2]
    ensures Compare([-1, 0, 2], 0, 1, 2, RowGeometry, FallingEnergy) == [-1, 0, -1]
    ensures OuterScan([1, 0, 2], 0, RowGeometry, FallingEnergy) == [-1, 0, -1]
    ensures Maxima([1, 0, 2], RowGeometry, FallingEnergy) == [0]
  {
    var g, amp := RowGeometry, FallingEnergy;
    assert Compare([1, 0, 2], 0, 1, 1, g, amp) == [-1, 0, 2];
    assert Compare([-1, 0, 2], 0, 1, 2, g, amp) == [-1, 0, -1];
    assert InnerScan([1, 0, 2], 0, 1, 0, g, amp) == [-1, 0, -1];
    assert InnerScan([-1, 0, -1], 1, 0, 0, g, amp) == [-1, 0, -1];
    assert OuterScan([1, 0, 2], 0, g, amp) == [-1, 0, -1];
    assert [-1, 0, -1][..2] == [-1, 0] && [-1, 0][..1] == [-1] && [-1][..0] == [];
    assert Compact([-1, 0, -1], amp) == [0];
  }

  /** A 10-energy centre between two 6-energy cells: only the centre remains. */
  function PeakEnergy(id: int): real { if id == 1 then 10.0 else 6.0 }

  lemma CentralPeakIsOnlyMaximum()
    ensures Maxima([1, 0, 2], RowGeometry, PeakEnergy) == [1]
  {
    var g, amp := RowGeometry, PeakEnergy;
    assert InnerScan([1, 0, 2], 0, 1, 0, g, amp) == [1, -1, -1];
    assert OuterScan([1, -1, -1], 1, g, amp) == [1, -1, -1];
    assert OuterScan([1, 0, 2], 0, g, amp) == [1, -1, -1];
    assert [1, -1, -1][..2] == [1, -1] && [1, -1][..1] == [1] && [1][..0] == [];
    assert Compact([1, -1, -1], amp) == [1];
  }
}

=== FILE: neighbours.dfy ===
/** The neighbour test of AreNeighbours: two cells touch when they share a side
    or a corner, after the column of one of them is shifted by one module width
    when they lie in different super-modules. */
module Neighbours {
  import opened Cells

  /** Number of cell columns of one EMCAL super-module (fgkEMCALCols). */
  const EmcalCols: int := 48

  function Abs(x: int): nat { if x < 0 then -x else x }

  /** Columns of the two cells in a common column space. When the super-modules
      differ, an odd super-module of the SECOND cell shifts the first cell's
      column by a module width, otherwise the second cell's column is shifted.
      C++ `%` truncates, but only its being non-zero is used, and that agrees
      with Dafny's `%` for negative operands too. */
  function SharedCols(p1: CellIndex, p2: CellIndex): (int, int)
  {
    if p1.sm != p2.sm then
      if p2.sm % 2 != 0 then (p1.col + EmcalCols, p2.col) else (p1.col, p2.col + EmcalCols)
    else (p1.col, p2.col)
  }

  /** The source's test: row and column differences both at most one, and not
      both zero. */
  predicate AreNeighbours(id1: int, id2: int, g: Geometry)
  {
    var p1 := g(id1);
    var p2 := g(id2);
    var cols := SharedCols(p1, p2);
    var rowdiff := Abs(p1.row - p2.row);
    var coldiff := Abs(cols.0 - cols.1);
    coldiff <= 1 && rowdiff <= 1 && coldiff + rowdiff > 0
  }

  /** Eight-connectivity on a grid: distinct positions at most one step apart
      along each axis (so diagonal positions touch). */
  predicate Touching(r1: int, c1: int, r2: int, c2: int)
  {
    (r1, c1) != (r2, c2) && r1 - 1 <= r2 <= r1 + 1 && c1 - 1 <= c2 <= c1 + 1
  }

  /** The test is exactly eight-connectivity in the shared column space. */
  lemma NeighboursAreTouching(id1: int, id2: int, g: Geometry)
    ensures AreNeighbours(id1, id2, g) <==>
            Touching(g(id1).row, SharedCols(g(id1), g(id2)).0, g(id2).row, SharedCols(g(id1), g(id2)).1)
  {
  }

  /** Inside one super-module: eight-connectivity of the module's own rows and columns. */
  lemma SameModuleNeighbours(id1: int, id2: int, g: Geometry)
    requires g(id1).sm == g(id2).sm
    ensures AreNeighbours(id1, id2, g) <==> Touching(g(id1).row, g(id1).col, g(id2).row, g(id2).col)
  {
  }

  /** A cell is never its own neighbour, nor is any cell at the same position. */
  lemma NeighboursIrreflexive(id1: int, id2: int, g: Geometry)
    requires g(id1) == g(id2)
    ensures !AreNeighbours(id1, id2, g)
  {
  }

  /** Symmetric when both cells are in the same super-module or in super-modules
      of different parity (the physical left/right neighbours). */
  lemma NeighboursSymmetric(id1: int, id2: int, g: Geometry)
    requires g(id1).sm == g(id2).sm || g(id1).sm % 2 != g(id2).sm % 2
    ensures AreNeighbours(id1, id2, g) == AreNeighbours(id2, id1, g)
  {
  }

  /** Geometry used by the witnesses below: cell 0 sits at the last column of
      super-module 0, cell 1 at the first column of super-module 2. */
  function ParityWitnessGeometry(id: int): CellIndex
  {
    if id == 0 then CellIndex(0, 5, 47) else CellIndex(2, 5, 0)
  }

  /** For different super-modules of the SAME parity the shift lands on the
      argument that comes second, so the test is not symmetric. */
  lemma NeighboursAsymmetricSameParity()
    ensures AreNeighbours(0, 1, ParityWitnessGeometry)
    ensures !AreNeighbours(1, 0, ParityWitnessGeometry)
  {
  }
}

=== FILE: pipeline.dfy ===
/** The per-cluster analysis chain and the cluster loop of one event:
    pre-selection, local maxima, shape cut, seed choice, energy split, pair
    mass and mass-window label. */
module Pipeline {
  import opened Cells
  import opened Neighbours
  import opened LocalMaxima
  import opened Seeds
  import opened Split
  import opened Classify

  /** A reconstructed cluster: its cell ids, its energy and its shower-shape
      parameter lambda_0^2. */
  datatype Cluster = Cluster(cells: seq<int>, energy: real, m02: real)

  /** Invariant mass of the two seed-cell momenta, from the seed ids and the
      energies given to them; cell positions, the vertex and the four-vector
      arithmetic sit behind this function. */
  type PairMass = (int, real, int, real) -> real

  /** What the analysis does with one cluster. NoMaxima ends the whole event. */
  datatype Outcome =
    | Skipped
    | NoMaxima
    | ShapeRejected(mult: Multiplicity)
    | Reconstructed(mult: Multiplicity, seeds: SeedPair, sub1: SubCluster, sub2: SubCluster,
                    mass: real, window: Window)

  /** Absolute cell ids are never negative. */
  predicate AllLive(s: seq<int>)
  {
    forall k :: 0 <= k < |s| ==> Live(s[k])
  }

  /** The missing cell (-1) reads below the seed threshold, so a seed of -1
      never outranks a real maximum. */
  predicate MissingCellDark(amp: Amplitude)
  {
    amp(NoCell) < MinSeedEnergy
  }

  /** The seeds chosen from the maxima a cluster actually has. */
  function ClusterSeeds(cells: seq<int>, g: Geometry, amp: Amplitude): SeedPair
    requires |Maxima(cells, g, amp)| >= 1
  {
    var m := Maxima(cells, g, amp);
    SelectSeeds(m, Energies(m, amp), cells, amp)
  }

  /** The seeds chosen from the maxima are safe for the splitter: seed 1 is a
      maximum, seed 2 is a maximum, a cluster cell or -1, never the same cell
      as seed 1, never a neighbour of seed 1 when both are maxima, and never
      above seed 1 unless there are exactly two maxima. With one maximum,
      seed 1 is a highest cell of the cluster, so seed 2 really is the second
      highest. */
  lemma SeedsSafe(cells: seq<int>, g: Geometry, amp: Amplitude)
    requires AllLive(cells) && MissingCellDark(amp) && |Maxima(cells, g, amp)| >= 1
    ensures var m, s := Maxima(cells, g, amp), ClusterSeeds(cells, g, amp);
      && SafeSeeds(cells, s.first, s.second, amp)
      && s.first in m
      && (|m| == 2 ==> s.second in m)
      && (s.second == NoCell || s.second in m || (|m| == 1 && s.second in cells))
      && (s.second in m ==> !AreNeighbours(s.first, s.second, g) && !AreNeighbours(s.second, s.first, g))
      && (|m| != 2 ==> amp(s.second) <= amp(s.first))
      && (|m| == 1 ==> forall k :: 0 <= k < |cells| ==> amp(cells[k]) <= amp(s.first))
      && (s.second != NoCell && |m| != 2 ==> s.first != s.second)
      && (Distinct(cells) && |m| >= 2 ==> s.second in m && s.first != s.second)
  {
    var m := Maxima(cells, g, amp);
    MaximaListed(cells, g, amp);
    MaximaNotNeighbours(cells, g, amp);
    if |m| == 2 {
      assert m[0] in m && m[1] in m;
    } else if |m| == 1 {
      SeedsOfOneMaximum(cells, g, amp);
    } else {
      SeedsOfManyMaxima(cells, g, amp);
    }
    if Distinct(cells) {
      SeedsOfDistinctCells(cells, g, amp);
    }
  }

  /** A single maximum is seed 1 and a highest cell of the cluster; seed 2 is
      the highest other cell, or -1, and is not above seed 1. */
  lemma SeedsOfOneMaximum(cells: seq<int>, g: Geometry, amp: Amplitude)
    requires AllLive(cells) && MissingCellDark(amp) && |Maxima(cells, g, amp)| == 1
    ensures var m, s := Maxima(cells, g, amp), ClusterSeeds(cells, g, amp);
      && s.first == m[0] && (s.second == NoCell || s.second in cells)
      && (forall k :: 0 <= k < |cells| ==> amp(cells[k]) <= amp(s.first))
      && amp(s.second) <= amp(s.first)
  {
    var m := Maxima(cells, g, amp);
    var s := ClusterSeeds(cells, g, amp);
    MaximaListed(cells, g, amp);
    assert m[0] in m;
    OneMaximumIsHighest(cells, g, amp);
    if s.second != NoCell {
      var k :| 0 <= k < |cells| && IsFirstHighest(cells, Energies(cells, amp), Some(s.first), k) && cells[k] == s.second;
    }
  }

  /** With three or more maxima both seeds are maxima (or seed 2 is -1), seed 2
      differs from seed 1 and is not above it. */
  lemma SeedsOfManyMaxima(cells: seq<int>, g: Geometry, amp: Amplitude)
    requires MissingCellDark(amp) && |Maxima(cells, g, amp)| >= 3
    ensures var m, s := Maxima(cells, g, amp), ClusterSeeds(cells, g, amp);
      && s.first in m
      && (s.second == NoCell || s.second in m)
      && amp(s.second) <= amp(s.first)
      && (s.second != NoCell ==> s.first != s.second)
  {
    var m := Maxima(cells, g, amp);
    var es := Energies(m, amp);
    var s := SelectSeeds(m, es, cells, amp);
    MaximaListed(cells, g, amp);
    assert !NonePositive(m, es, None) by {
      assert Eligible(m, None, 0) && m[0] in m;
    }
    var k :| 0 <= k < |m| && IsFirstHighest(m, es, None, k) && m[k] == s.first;
    if s.second != NoCell {
      var k2 :| 0 <= k2 < |m| && IsFirstHighest(m, es, Some(s.first), k2) && m[k2] == s.second;
      assert es[k2] <= es[k];
    }
  }

  /** In a cluster without repeated cells, two or more maxima give two
      different seeds that are both maxima. */
  lemma SeedsOfDistinctCells(cells: seq<int>, g: Geometry, amp: Amplitude)
    requires Distinct(cells) && |Maxima(cells, g, amp)| >= 1
    ensures var m, s := Maxima(cells, g, amp), ClusterSeeds(cells, g, amp);
      |m| >= 2 ==> s.second in m && s.first != s.second
  {
    var m := Maxima(cells, g, amp);
    var es := Energies(m, amp);
    MaximaListed(cells, g, amp);
    forall k | 0 <= k < |es| ensures es[k] > 0.0 {
      assert m[k] in m;
    }
    SeedsFromMaxima(m, es, cells, amp);
  }

  /** The split of a safe seed pair, with the facts that need distinct ids
      stated conditionally. */
  lemma SplitFacts(cells: seq<int>, seed1: int, seed2: int, g: Geometry, amp: Amplitude)
    requires SafeSeeds(cells, seed1, seed2, amp)
    ensures var r := Split.Split(cells, seed1, seed2, g, amp);
      && 1 <= |r.0.cells| <= |cells| && 1 <= |r.1.cells| <= |cells|
      && r.0.cells[0] == seed1 && r.1.cells[0] == seed2
      && r.0.energy == SumE(r.0.cells, amp) && r.1.energy == SumE(r.1.cells, amp)
      && (forall m :: 1 <= m < |r.0.cells| ==> r.0.cells[m] in cells && amp(r.0.cells[m]) < amp(seed1))
      && (forall m :: 1 <= m < |r.1.cells| ==> r.1.cells[m] in cells && amp(r.1.cells[m]) < amp(seed2))
      && Connected(r.0.cells, g, amp) && Connected(r.1.cells, g, amp)
      && (var p1, p2 := Split1(cells, seed1, seed2, g, amp).0, Leftover(cells, seed1, seed2, g, amp);
          && |p1| == |cells| && |p2| == |cells|
          && (forall x :: x in cells && Claimable(x, seed1, Some(seed2), g, amp) ==> x in r.0.cells[1..])
          && (forall x :: x in p1 && Claimable(x, seed2, None, g, amp) ==> x in r.1.cells[1..])
          && (forall k :: 0 <= k < |cells| ==>
                cells[k] in r.0.cells[1..] || (p1[k] == cells[k] && !Claimable(cells[k], Last(r.0.cells), Some(seed2), g, amp)))
          && (forall k :: 0 <= k < |cells| ==>
                p1[k] in r.1.cells[1..] || (p2[k] == p1[k] && !Claimable(p1[k], Last(r.1.cells), None, g, amp))))
      && (DistinctLive(cells) && seed1 != seed2 && amp(seed2) <= amp(seed1) ==>
            forall x :: x in r.0.cells ==> x !in r.1.cells)
  {
    SplitBounded(cells, seed1, seed2, g, amp);
    if DistinctLive(cells) {
      SplitDisjoint(cells, seed1, seed2, g, amp);
    }
  }

  /** Analysis of one cluster. */
  function AnalyseCluster(cfg: Config, c: Cluster, g: Geometry, amp: Amplitude, mass: PairMass): (o: Outcome)
    requires AllLive(c.cells) && MissingCellDark(amp)
    ensures o.Skipped? <==> !Analysed(cfg, c.energy, |c.cells|)
    ensures o.NoMaxima? <==> Analysed(cfg, c.energy, |c.cells|) && |Maxima(c.cells, g, amp)| == 0
    ensures o.ShapeRejected? <==>
      Analysed(cfg, c.energy, |c.cells|) && |Maxima(c.cells, g, amp)| >= 1 && !PassesShapeCut(cfg, c.m02)
    ensures (o.ShapeRejected? || o.Reconstructed?) ==> o.mult == Bucket(|Maxima(c.cells, g, amp)|)
    ensures o.Reconstructed? ==>
      && PassesShapeCut(cfg, c.m02)
      && o.seeds.first in Maxima(c.cells, g, amp)
      && SafeSeeds(c.cells, o.seeds.first, o.seeds.second, amp)
      && (o.mult == Two ==> !AreNeighbours(o.seeds.first, o.seeds.second, g))
      && (o.mult != Two ==> amp(o.seeds.second) <= amp(o.seeds.first))
      && 1 <= |o.sub1.cells| <= |c.cells| && 1 <= |o.sub2.cells| <= |c.cells|
      && o.sub1.cells[0] == o.seeds.first && o.sub2.cells[0] == o.seeds.second
      && o.sub1.energy == SumE(o.sub1.cells, amp) && o.sub2.energy == SumE(o.sub2.cells, amp)
      && (forall m :: 1 <= m < |o.sub1.cells| ==> o.sub1.cells[m] in c.cells)
      && (forall m :: 1 <= m < |o.sub2.cells| ==> o.sub2.cells[m] in c.cells)
      && Connected(o.sub1.cells, g, amp) && Connected(o.sub2.cells, g, amp)
      && o.mass == mass(o.seeds.first, MomentumEnergy(o.sub1.energy, o.seeds.first, amp),
                        o.seeds.second, MomentumEnergy(o.sub2.energy, o.seeds.second, amp))
      && o.window == MassLabel(cfg, o.mass)
    ensures o.Reconstructed? ==>
      && o.seeds == ClusterSeeds(c.cells, g, amp)
      && (o.sub1, o.sub2) == Split.Split(c.cells, o.seeds.first, o.seeds.second, g, amp)
      && (o.mult == One ==> forall k :: 0 <= k < |c.cells| ==> amp(c.cells[k]) <= amp(o.seeds.first))
    ensures o.Reconstructed? && Distinct(c.cells) && o.mult != Two ==>
      forall x :: x in o.sub1.cells ==> x !in o.sub2.cells
  {
    if !Analysed(cfg, c.energy, |c.cells|) then Skipped
    else
      var maxIds := Maxima(c.cells, g, amp);
      if |maxIds| == 0 then NoMaxima
      else if !PassesShapeCut(cfg, c.m02) then ShapeRejected(Bucket(|maxIds|))
      else
        var seeds := ClusterSeeds(c.cells, g, amp);
        SeedsSafe(c.cells, g, amp);
        SplitFacts(c.cells, seeds.first, seeds.second, g, amp);
        var subs := Split.Split(c.cells, seeds.first, seeds.second, g, amp);
        var m := mass(seeds.first, MomentumEnergy(subs.0.energy, seeds.first, amp),
                      seeds.second, MomentumEnergy(subs.1.energy, seeds.second, amp));
        Reconstructed(Bucket(|maxIds|), seeds, subs.0, subs.1, m, MassLabel(cfg, m))
  }

  /** The cluster loop of one event: every cluster in order, until one has no
      local maximum, after which the rest of the event is abandoned. */
  function AnalyseEvent(cfg: Config, cs: seq<Cluster>, g: Geometry, amp: Amplitude, mass: PairMass)
    : (os: seq<Outcome>)
    requires forall k :: 0 <= k < |cs| ==> AllLive(cs[k].cells)
    requires MissingCellDark(amp)
    ensures |os| <= |cs|
    ensures forall k :: 0 <= k < |os| ==> os[k] == AnalyseCluster(cfg, cs[k], g, amp, mass)
    ensures forall k :: 0 <= k < |os| - 1 ==> !os[k].NoMaxima?
    decreases |cs|
  {
    if |cs| == 0 then []
    else
      var o := AnalyseCluster(cfg, cs[0], g, amp, mass);
      if o.NoMaxima? then [o]
      else [o] + AnalyseEvent(cfg, cs[1..], g, amp, mass)
  }

  /** The event loop only stops early at a cluster without local maxima, and
      that cluster's outcome is the last one recorded. */
  lemma {:induction false} EventStopsAtNoMaxima(cfg: Config, cs: seq<Cluster>, g: Geometry, amp: Amplitude, mass: PairMass)
    requires forall k :: 0 <= k < |cs| ==> AllLive(cs[k].cells)
    requires MissingCellDark(amp)
    ensures var os := AnalyseEvent(cfg, cs, g, amp, mass);
      |os| < |cs| ==> |os| >= 1 && os[|os| - 1].NoMaxima?
    decreases |cs|
  {
    if |cs| > 0 {
      var o := AnalyseCluster(cfg, cs[0], g, amp, mass);
      if !o.NoMaxima? {
        var rest := AnalyseEvent(cfg, cs[1..], g, amp, mass);
        EventStopsAtNoMaxima(cfg, cs[1..], g, amp, mass);
        assert AnalyseEvent(cfg, cs, g, amp, mass) == [o] + rest;
        assert |rest| < |cs| - 1 ==> ([o] + rest)[|rest|] == rest[|rest| - 1];
      }
    }
  }

  /** The same analysis of one cluster, run through the array implementations
      of the maxima finder and of the splitter. */
  method AnalyseClusterImpl(cfg: Config, c: Cluster, g: Geometry, amp: Amplitude, mass: PairMass)
    returns (o: Outcome)
    requires AllLive(c.cells) && MissingCellDark(amp)
    ensures o == AnalyseCluster(cfg, c, g, amp, mass)
    ensures o.Reconstructed? ==> SafeSeeds(c.cells, o.seeds.first, o.seeds.second, amp)
  {
    if !Analysed(cfg, c.energy, |c.cells|) {
      return Skipped;
    }
    var nMax, absIds, maxEs := GetNumberOfLocalMaxima(c.cells, g, amp);
    if nMax == 0 {
      return NoMaxima;
    }
    var mult := Bucket(nMax);
    if !PassesShapeCut(cfg, c.m02) {
      return ShapeRejected(mult);
    }
    var seeds := SelectSeeds(absIds, maxEs, c.cells, amp);
    SeedsSafe(c.cells, g, amp);
    var e1, e2, sub1, sub2 := SplitEnergy(c.cells, seeds.first, seeds.second, g, amp);
    var m := mass(seeds.first, MomentumEnergy(e1, seeds.first, amp), seeds.second, MomentumEnergy(e2, seeds.second, amp));
    o := Reconstructed(mult, seeds, SubCluster(sub1, e1), SubCluster(sub2, e2), m, MassLabel(cfg, m));
  }

  /** The suppression passes on the four cells: cell 2 loses to cell 1, cell 1
      then loses to cell 0, and cell 3, the lowest cell, is left because its
      only higher neighbour, cell 2, is already dead. */
  lemma SlopeSuppression()
    ensures OuterScan([1, 3, 2, 0], 0, RowGeometry, SlopeEnergy) == [-1, 3, -1, 0]
  {
    var g, amp := RowGeometry, SlopeEnergy;
    var a, b := [1, 3, 2, 0], [-1, 3, -1, 0];
    assert Compare(a, 0, 1, 2, g, amp) == [1, 3, -1, 0];
    assert Compare([1, 3, -1, 0], 0, 1, 3, g, amp) == b;
    assert InnerScan(a, 0, 1, 2, g, amp) == b;
    assert InnerScan(a, 0, 1, 0, g, amp) == b;
    assert InnerScan(b, 1, 3, 0, g, amp) == b;
    assert InnerScan(b, 3, 0, 0, g, amp) == b;
    assert OuterScan(b, 1, g, amp) == b;
  }

  /** The cluster of SeedOneClaimedBySecondGrowth is one the chain produces:
      cell 1 kills cell 2 and then dies against cell 0, so cell 3 keeps no live
      higher neighbour and the maxima, in cluster order, are 3 and 0. The seeds
      are therefore 3 and 0, with seed 2 above seed 1. */
  lemma SlopeClusterSeeds()
    ensures Maxima([1, 3, 2, 0], RowGeometry, SlopeEnergy) == [3, 0]
    ensures ClusterSeeds([1, 3, 2, 0], RowGeometry, SlopeEnergy) == SeedPair(3, 0)
    ensures SlopeEnergy(3) < SlopeEnergy(0)
  {
    var b := [-1, 3, -1, 0];
    SlopeSuppression();
    assert b[..3] == [-1, 3, -1] && b[..3][..2] == [-1, 3] && [-1, 3][..1] == [-1] && [-1][..0] == [];
    assert Compact(b, SlopeEnergy) == [3, 0];
  }
}

=== FILE: seeds.dfy ===
/** Choice of the two dominant seeds of a cluster, from its maxima list. The
    scans keep the first cell whose energy beats the best so far with a strict
    `>`, starting from a best energy of zero, so ties go to the earliest cell
    and only strictly positive energies are ever chosen. */
module Seeds {
  import opened Cells

  datatype SeedPair = SeedPair(first: int, second: int)

  /** Position k takes part in a scan unless its id is the skipped one. */
  predicate Eligible(ids: seq<int>, skip: Option<int>, k: nat)
    requires k < |ids|
  {
    skip.None? || ids[k] != skip.value
  }

  /** Position k holds the first occurrence of the highest strictly positive
      energy among the eligible positions. */
  predicate IsFirstHighest(ids: seq<int>, es: seq<real>, skip: Option<int>, k: nat)
    requires |ids| == |es|
  {
    && k < |ids| && Eligible(ids, skip, k) && es[k] > 0.0
    && (forall m :: 0 <= m < |ids| && Eligible(ids, skip, m) ==> es[m] <= es[k])
    && (forall m :: 0 <= m < k && Eligible(ids, skip, m) ==> es[m] < es[k])
  }

  /** No eligible position has a strictly positive energy. */
  predicate NonePositive(ids: seq<int>, es: seq<real>, skip: Option<int>)
    requires |ids| == |es|
  {
    forall m :: 0 <= m < |ids| && Eligible(ids, skip, m) ==> es[m] <= 0.0
  }

  /** The id a scan reports: that of the first highest positive position, or -1
      when there is none. */
  predicate SeedOf(ids: seq<int>, es: seq<real>, skip: Option<int>, x: int)
    requires |ids| == |es|
  {
    || (NonePositive(ids, es, skip) && x == NoCell)
    || (exists k :: 0 <= k < |ids| && IsFirstHighest(ids, es, skip, k) && ids[k] == x)
  }

  /** There is at most one first highest position. */
  lemma FirstHighestUnique(ids: seq<int>, es: seq<real>, skip: Option<int>, k: nat, k': nat)
    requires |ids| == |es|
    requires IsFirstHighest(ids, es, skip, k) && IsFirstHighest(ids, es, skip, k')
    ensures k == k'
  {
  }

  /** The scan loop from position i, with the best position and energy found so
      far (none and zero at the start). */
  function ScanHighest(ids: seq<int>, es: seq<real>, skip: Option<int>, i: nat, best: Option<nat>, bestE: real): (r: Option<nat>)
    requires |ids| == |es| && i <= |ids|
    requires best.None? ==> bestE == 0.0 && forall m :: 0 <= m < i && Eligible(ids, skip, m) ==> es[m] <= 0.0
    requires best.Some? ==>
      && best.value < i && Eligible(ids, skip, best.value) && es[best.value] == bestE && bestE > 0.0
      && (forall m :: 0 <= m < i && Eligible(ids, skip, m) ==> es[m] <= bestE)
      && (forall m :: 0 <= m < best.value && Eligible(ids, skip, m) ==> es[m] < bestE)
    ensures r.None? <==> NonePositive(ids, es, skip)
    ensures r.Some? ==> IsFirstHighest(ids, es, skip, r.value)
    decreases |ids| - i
  {
    if i == |ids| then best
    else if Eligible(ids, skip, i) && es[i] > bestE then ScanHighest(ids, es, skip, i + 1, Some(i), es[i])
    else ScanHighest(ids, es, skip, i + 1, best, bestE)
  }

  /** The whole scan, reported as an id (-1 when nothing is positive). */
  function HighestId(ids: seq<int>, es: seq<real>, skip: Option<int>): (x: int)
    requires |ids| == |es|
    ensures SeedOf(ids, es, skip, x)
  {
    match ScanHighest(ids, es, skip, 0, None, 0.0)
    case None => NoCell
    case Some(k) => ids[k]
  }

  /** Seed selection for a cluster with maxima `maxIds` (energies `maxEs`) and
      cell ids `cells`:
      - two maxima: both, in list order;
      - one maximum: it, and the first highest positive-energy cluster cell
        other than it (or -1);
      - three or more: the first highest maximum, and the first highest of the
        maxima with a different id (or -1). */
  function SelectSeeds(maxIds: seq<int>, maxEs: seq<real>, cells: seq<int>, amp: Amplitude): (r: SeedPair)
    requires |maxIds| == |maxEs| && |maxIds| >= 1
    ensures |maxIds| == 2 ==> r == SeedPair(maxIds[0], maxIds[1])
    ensures |maxIds| == 1 ==> r.first == maxIds[0] && SeedOf(cells, Energies(cells, amp), Some(r.first), r.second)
    ensures |maxIds| >= 3 ==> SeedOf(maxIds, maxEs, None, r.first) && SeedOf(maxIds, maxEs, Some(r.first), r.second)
    ensures Distinct(maxIds) && r.second != NoCell ==> r.first != r.second
  {
    if |maxIds| == 2 then SeedPair(maxIds[0], maxIds[1])
    else if |maxIds| == 1 then SeedPair(maxIds[0], HighestId(cells, Energies(cells, amp), Some(maxIds[0])))
    else
      var first := HighestId(maxIds, maxEs, None);
      SeedPair(first, HighestId(maxIds, maxEs, Some(first)))
  }

  /** With maxima as the finder returns them (distinct, positive energies), the
      first seed is a maximum; with two or more maxima so is the second, and
      it differs from the first; with one maximum the second seed is a cluster
      cell or -1. */
  lemma SeedsFromMaxima(maxIds: seq<int>, maxEs: seq<real>, cells: seq<int>, amp: Amplitude)
    requires |maxIds| == |maxEs| && |maxIds| >= 1 && Distinct(maxIds)
    requires forall k :: 0 <= k < |maxEs| ==> maxEs[k] > 0.0
    ensures SelectSeeds(maxIds, maxEs, cells, amp).first in maxIds
    ensures |maxIds| >= 2 ==>
      SelectSeeds(maxIds, maxEs, cells, amp).second in maxIds &&
      SelectSeeds(maxIds, maxEs, cells, amp).second != SelectSeeds(maxIds, maxEs, cells, amp).first
    ensures |maxIds| == 1 ==>
      SelectSeeds(maxIds, maxEs, cells, amp).second == NoCell || SelectSeeds(maxIds, maxEs, cells, amp).second in cells
  {
    var r := SelectSeeds(maxIds, maxEs, cells, amp);
    if |maxIds| >= 3 {
      assert !NonePositive(maxIds, maxEs, None) by {
        assert Eligible(maxIds, None, 0);
      }
      var k :| 0 <= k < |maxIds| && IsFirstHighest(maxIds, maxEs, None, k) && maxIds[k] == r.first;
      var other := if k == 0 then 1 else 0;
      assert maxIds[other] != maxIds[k];
      assert Eligible(maxIds, Some(r.first), other);
      assert !NonePositive(maxIds, maxEs, Some(r.first));
      var k2 :| 0 <= k2 < |maxIds| && IsFirstHighest(maxIds, maxEs, Some(r.first), k2) && maxIds[k2] == r.second;
    } else if |maxIds| == 1 {
      if r.second != NoCell {
        var es := Energies(cells, amp);
        var k :| 0 <= k < |cells| && IsFirstHighest(cells, es, Some(r.first), k) && cells[k] == r.second;
      }
    }
  }
}

=== FILE: split.dfy ===
/** SplitEnergy: two greedy downhill growths over a shared pool of cluster
    slots. A pass scans the pool from a fixed front cell and claims every live
    neighbour of strictly lower energy; the cell claimed last becomes the front
    of the next pass, and growth stops after a pass that claims nothing. Growth
    of sub-cluster 1 never claims seed 2; growth of sub-cluster 2 runs on what is
    left and does not exclude seed 1. */
module Split {
  import opened Cells
  import opened Neighbours

  /** Cell ids of a sub-cluster (its seed first) and their accumulated energy. */
  datatype SubCluster = SubCluster(cells: seq<int>, energy: real)

  /** State after scanning the pool: the pool, the sub-cluster, and whether
      anything has been claimed during this pass. */
  datatype ScanState = ScanState(pool: seq<int>, sub: SubCluster, added: bool)

  /** Pool slot holding `x` may be claimed from the front cell. */
  predicate Claimable(x: int, front: int, excluded: Option<int>, g: Geometry, amp: Amplitude)
  {
    && x != front && (excluded.None? || x != excluded.value) && Live(x)
    && AreNeighbours(front, x, g) && amp(front) > amp(x)
  }

  function Claim(sub: SubCluster, x: int, amp: Amplitude): SubCluster
  {
    SubCluster(sub.cells + [x], sub.energy + amp(x))
  }

  function Last(s: seq<int>): int
    requires |s| > 0
  {
    s[|s| - 1]
  }

  /** One pass, from pool slot i on, with a fixed front cell. */
  function Scan(pool: seq<int>, i: nat, front: int, excluded: Option<int>, sub: SubCluster, added: bool,
                g: Geometry, amp: Amplitude): (r: ScanState)
    requires i <= |pool|
    ensures |r.pool| == |pool|
    ensures CountLive(r.pool) + |r.sub.cells| == CountLive(pool) + |sub.cells|
    ensures |r.sub.cells| >= |sub.cells|
    ensures r.added <==> added || |r.sub.cells| > |sub.cells|
    decreases |pool| - i
  {
    if i == |pool| then ScanState(pool, sub, added)
    else if Claimable(pool[i], front, excluded, g, amp) then
      CountLiveKill(pool, i);
      Scan(pool[i := NoCell], i + 1, front, excluded, Claim(sub, pool[i], amp), true, g, amp)
    else Scan(pool, i + 1, front, excluded, sub, added, g, amp)
  }

  /** Passes until one claims nothing. Each productive pass removes at least
      one live slot from the pool, which bounds the number of passes. */
  function Grow(pool: seq<int>, sub: SubCluster, excluded: Option<int>, g: Geometry, amp: Amplitude)
    : (r: (seq<int>, SubCluster))
    requires |sub.cells| > 0
    ensures |r.0| == |pool|
    ensures CountLive(r.0) + |r.1.cells| == CountLive(pool) + |sub.cells|
    ensures |r.1.cells| >= |sub.cells|
    decreases CountLive(pool)
  {
    var s := Scan(pool, 0, Last(sub.cells), excluded, sub, false, g, amp);
    if s.added then Grow(s.pool, s.sub, excluded, g, amp) else (s.pool, s.sub)
  }

  /** One step of the growth: a scan from the current front, then more passes
      only if it claimed something. */
  lemma GrowUnfold(pool: seq<int>, sub: SubCluster, excluded: Option<int>, g: Geometry, amp: Amplitude)
    requires |sub.cells| > 0
    ensures var sc := Scan(pool, 0, Last(sub.cells), excluded, sub, false, g, amp);
      Grow(pool, sub, excluded, g, amp) == if sc.added then Grow(sc.pool, sc.sub, excluded, g, amp) else (sc.pool, sc.sub)
  {
  }

  /** A sub-cluster holding only its seed. */
  function Seeded(seed: int, amp: Amplitude): SubCluster
  {
    SubCluster([seed], amp(seed))
  }

  /** The whole split: growth of sub-cluster 1 (seed 2 excluded), then of
      sub-cluster 2 on the remaining pool. */
  function Split(cells: seq<int>, seed1: int, seed2: int, g: Geometry, amp: Amplitude): (SubCluster, SubCluster)
  {
    var first := Grow(cells, Seeded(seed1, amp), Some(seed2), g, amp);
    var second := Grow(first.0, Seeded(seed2, amp), None, g, amp);
    (first.1, second.1)
  }

  /** Seeds for which both growths stay inside arrays of the cluster's size:
      seed 1 is a cluster cell, and seed 2 is one too or is not above seed 1. */
  predicate SafeSeeds(cells: seq<int>, seed1: int, seed2: int, amp: Amplitude)
  {
    && Live(seed1) && seed1 in cells
    && ((Live(seed2) && seed2 in cells) || amp(seed2) <= amp(seed1))
  }

  // ---------------------------------------------------------------------
  // Invariant of one growth.

  /** Pool and sub-cluster agree with the starting pool: slots only die, the
      seed comes first, the energy is the sum over the sub-cluster, and every
      claimed cell cost the pool one live slot. */
  predicate Accounted(start: seq<int>, pool: seq<int>, sub: SubCluster, seed: int, amp: Amplitude)
  {
    && Dies(start, pool)
    && |sub.cells| >= 1 && sub.cells[0] == seed
    && sub.energy == SumE(sub.cells, amp)
    && CountLive(pool) + |sub.cells| == CountLive(start) + 1
  }

  /** Every claimed cell is a live cell of the starting pool, strictly below the
      seed, and not the excluded cell. */
  predicate Downhill(start: seq<int>, claimed: seq<int>, seed: int, excluded: Option<int>, amp: Amplitude)
  {
    forall m :: 1 <= m < |claimed| ==>
      Live(claimed[m]) && claimed[m] in start && amp(claimed[m]) < amp(seed)
      && (excluded.None? || claimed[m] != excluded.value)
  }

  /** Every slot that died was claimed. */
  predicate Traced(start: seq<int>, pool: seq<int>, claimed: seq<int>)
    requires |pool| == |start| && |claimed| >= 1
  {
    forall k :: 0 <= k < |pool| && pool[k] != start[k] ==> start[k] in claimed[1..]
  }

  /** With distinct live ids, a cell is claimed once and then gone from the pool. */
  predicate Unique(start: seq<int>, pool: seq<int>, claimed: seq<int>)
  {
    DistinctLive(start) ==> Distinct(claimed) && forall m :: 1 <= m < |claimed| ==> claimed[m] !in pool
  }

  predicate GrowInv(start: seq<int>, pool: seq<int>, sub: SubCluster, seed: int, excluded: Option<int>, amp: Amplitude)
  {
    && Accounted(start, pool, sub, seed, amp)
    && Downhill(start, sub.cells, seed, excluded, amp)
    && Traced(start, pool, sub.cells)
    && Unique(start, pool, sub.cells)
  }

  /** Slot `anchor` is live and holds a cell no front can claim: the seed
      itself, or a cell not below the seed. */
  predicate Anchored(pool: seq<int>, anchor: nat, seed: int, amp: Amplitude)
  {
    anchor < |pool| && Live(pool[anchor]) && (pool[anchor] == seed || amp(pool[anchor]) >= amp(seed))
  }

  /** The front of a pass is the seed or a claimed cell, so never above the seed. */
  lemma FrontNotAboveSeed(start: seq<int>, pool: seq<int>, sub: SubCluster, seed: int, excluded: Option<int>, amp: Amplitude)
    requires GrowInv(start, pool, sub, seed, excluded, amp)
    ensures amp(Last(sub.cells)) <= amp(seed)
  {
    if |sub.cells| > 1 {
      assert amp(sub.cells[|sub.cells| - 1]) < amp(seed);
    }
  }

  /** One claim keeps the invariant and the anchor. */
  lemma ClaimKeepsInv(start: seq<int>, pool: seq<int>, i: nat, sub: SubCluster, seed: int, excluded: Option<int>,
                      front: int, anchor: nat, g: Geometry, amp: Amplitude)
    requires GrowInv(start, pool, sub, seed, excluded, amp) && Anchored(pool, anchor, seed, amp)
    requires amp(front) <= amp(seed)
    requires i < |pool| && Claimable(pool[i], front, excluded, g, amp)
    ensures GrowInv(start, pool[i := NoCell], Claim(sub, pool[i], amp), seed, excluded, amp)
    ensures Anchored(pool[i := NoCell], anchor, seed, amp)
  {
    var x := pool[i];
    assert x == start[i];
    ClaimAccounted(start, pool, i, sub, seed, amp);
    ClaimTraced(start, pool, i, sub.cells);
    ClaimUnique(start, pool, i, sub.cells, seed, amp);
  }

  lemma ClaimAccounted(start: seq<int>, pool: seq<int>, i: nat, sub: SubCluster, seed: int, amp: Amplitude)
    requires Accounted(start, pool, sub, seed, amp) && i < |pool| && Live(pool[i])
    ensures Accounted(start, pool[i := NoCell], Claim(sub, pool[i], amp), seed, amp)
  {
    CountLiveKill(pool, i);
    SumEAppend(sub.cells, pool[i], amp);
  }

  lemma ClaimTraced(start: seq<int>, pool: seq<int>, i: nat, claimed: seq<int>)
    requires |pool| == |start| && |claimed| >= 1 && Traced(start, pool, claimed)
    requires i < |pool| && pool[i] == start[i]
    ensures Traced(start, pool[i := NoCell], claimed + [pool[i]])
  {
    var claimed' := claimed + [pool[i]];
    assert claimed'[1..] == claimed[1..] + [pool[i]];
    forall k | 0 <= k < |pool| && pool[i := NoCell][k] != start[k] ensures start[k] in claimed'[1..] {
      if k != i {
        assert start[k] in claimed[1..];
      }
    }
  }

  lemma ClaimUnique(start: seq<int>, pool: seq<int>, i: nat, claimed: seq<int>, seed: int, amp: Amplitude)
    requires Dies(start, pool) && Unique(start, pool, claimed) && |claimed| >= 1 && claimed[0] == seed
    requires Downhill(start, claimed, seed, None, amp)
    requires i < |pool| && Live(pool[i]) && amp(pool[i]) < amp(seed)
    ensures Unique(start, pool[i := NoCell], claimed + [pool[i]])
  {
    var x := pool[i];
    var pool' := pool[i := NoCell];
    var claimed' := claimed + [x];
    if DistinctLive(start) {
      assert x == start[i];
      forall m | 1 <= m < |claimed'| ensures claimed'[m] !in pool' {
        if m < |claimed| {
          assert claimed[m] !in pool;
        } else {
          assert claimed'[m] == x;
          forall k | 0 <= k < |pool'| ensures pool'[k] != x {
            if k != i && pool[k] != NoCell {
              assert pool[k] == start[k];
            }
          }
        }
      }
      forall p, q | 0 <= p < |claimed'| && 0 <= q < |claimed'| && p != q ensures claimed'[p] != claimed'[q] {
        if p == |claimed| || q == |claimed| {
          var other := if p == |claimed| then q else p;
          if other >= 1 {
            assert claimed[other] !in pool;
            assert x in pool;
          }
        }
      }
    }
  }

  lemma {:induction false} ScanKeepsInv(start: seq<int>, pool: seq<int>, i: nat, sub: SubCluster, added: bool,
                                        seed: int, excluded: Option<int>, front: int, anchor: nat,
                                        g: Geometry, amp: Amplitude)
    requires i <= |pool| && GrowInv(start, pool, sub, seed, excluded, amp) && Anchored(pool, anchor, seed, amp)
    requires amp(front) <= amp(seed)
    ensures var r := Scan(pool, i, front, excluded, sub, added, g, amp);
      GrowInv(start, r.pool, r.sub, seed, excluded, amp) && Anchored(r.pool, anchor, seed, amp)
    decreases |pool| - i, 1
  {
    if i < |pool| {
      if Claimable(pool[i], front, excluded, g, amp) {
        ClaimThenScanKeepsInv(start, pool, i, sub, seed, excluded, front, anchor, g, amp);
      } else {
        ScanKeepsInv(start, pool, i + 1, sub, added, seed, excluded, front, anchor, g, amp);
      }
    }
  }

  /** The claiming step of ScanKeepsInv: claim slot i, then scan on. */
  lemma {:induction false} ClaimThenScanKeepsInv(start: seq<int>, pool: seq<int>, i: nat, sub: SubCluster,
                                                 seed: int, excluded: Option<int>, front: int, anchor: nat,
                                                 g: Geometry, amp: Amplitude)
    requires i < |pool| && GrowInv(start, pool, sub, seed, excluded, amp) && Anchored(pool, anchor, seed, amp)
    requires amp(front) <= amp(seed) && Claimable(pool[i], front, excluded, g, amp)
    ensures var r := Scan(pool[i := NoCell], i + 1, front, excluded, Claim(sub, pool[i], amp), true, g, amp);
      GrowInv(start, r.pool, r.sub, seed, excluded, amp) && Anchored(r.pool, anchor, seed, amp)
    decreases |pool| - i, 0
  {
    ClaimKeepsInv(start, pool, i, sub, seed, excluded, front, anchor, g, amp);
    ScanKeepsInv(start, pool[i := NoCell], i + 1, Claim(sub, pool[i], amp), true, seed, excluded, front, anchor, g, amp);
  }

  lemma {:induction false} GrowKeepsInv(start: seq<int>, pool: seq<int>, sub: SubCluster, seed: int, excluded: Option<int>,
                                        anchor: nat, g: Geometry, amp: Amplitude)
    requires GrowInv(start, pool, sub, seed, excluded, amp) && Anchored(pool, anchor, seed, amp)
    ensures GrowInv(start, Grow(pool, sub, excluded, g, amp).0, Grow(pool, sub, excluded, g, amp).1, seed, excluded, amp)
    ensures Anchored(Grow(pool, sub, excluded, g, amp).0, anchor, seed, amp)
    decreases CountLive(pool)
  {
    FrontNotAboveSeed(start, pool, sub, seed, excluded, amp);
    var s := Scan(pool, 0, Last(sub.cells), excluded, sub, false, g, amp);
    ScanKeepsInv(start, pool, 0, sub, false, seed, excluded, Last(sub.cells), anchor, g, amp);
    if s.added {
      GrowKeepsInv(start, s.pool, s.sub, seed, excluded, anchor, g, amp);
    }
  }

  // ---------------------------------------------------------------------
  // Properties of the split.

  lemma SeededInv(start: seq<int>, seed: int, excluded: Option<int>, amp: Amplitude)
    ensures GrowInv(start, start, Seeded(seed, amp), seed, excluded, amp)
  {
    assert [seed][..0] == [];
  }

  lemma DiesKeepsDistinctLive(a: seq<int>, b: seq<int>)
    requires Dies(a, b) && DistinctLive(a)
    ensures DistinctLive(b)
  {
    forall p, q | 0 <= p < |b| && 0 <= q < |b| && p != q && Live(b[p]) ensures b[p] != b[q] {
      assert a[p] != a[q];
    }
  }

  /** First growth: its invariant, and seed 1 still live in the pool it leaves. */
  lemma FirstGrowth(cells: seq<int>, seed1: int, seed2: int, g: Geometry, amp: Amplitude) returns (k1: nat)
    requires SafeSeeds(cells, seed1, seed2, amp)
    ensures GrowInv(cells, Split1(cells, seed1, seed2, g, amp).0, Split1(cells, seed1, seed2, g, amp).1, seed1, Some(seed2), amp)
    ensures Anchored(Split1(cells, seed1, seed2, g, amp).0, k1, seed1, amp)
    ensures Split1(cells, seed1, seed2, g, amp).0[k1] == seed1
  {
    k1 :| 0 <= k1 < |cells| && cells[k1] == seed1;
    SeededInv(cells, seed1, Some(seed2), amp);
    GrowKeepsInv(cells, cells, Seeded(seed1, amp), seed1, Some(seed2), k1, g, amp);
  }

  /** State left by the first growth. */
  function Split1(cells: seq<int>, seed1: int, seed2: int, g: Geometry, amp: Amplitude): (seq<int>, SubCluster)
  {
    Grow(cells, Seeded(seed1, amp), Some(seed2), g, amp)
  }

  /** Second growth: its invariant, with some slot no front of it can claim. */
  lemma SecondGrowth(cells: seq<int>, seed1: int, seed2: int, g: Geometry, amp: Amplitude) returns (k2: nat)
    requires SafeSeeds(cells, seed1, seed2, amp)
    ensures GrowInv(Split1(cells, seed1, seed2, g, amp).0, Grow(Split1(cells, seed1, seed2, g, amp).0, Seeded(seed2, amp), None, g, amp).0,
                    Grow(Split1(cells, seed1, seed2, g, amp).0, Seeded(seed2, amp), None, g, amp).1, seed2, None, amp)
    ensures Anchored(Grow(Split1(cells, seed1, seed2, g, amp).0, Seeded(seed2, amp), None, g, amp).0, k2, seed2, amp)
  {
    var first := Split1(cells, seed1, seed2, g, amp);
    var k1 := FirstGrowth(cells, seed1, seed2, g, amp);
    var p1 := first.0;
    if Live(seed2) && seed2 in cells {
      k2 :| 0 <= k2 < |cells| && cells[k2] == seed2;
    } else {
      k2 := k1;
    }
    assert Anchored(p1, k2, seed2, amp);
    SeededInv(p1, seed2, None, amp);
    GrowKeepsInv(p1, p1, Seeded(seed2, amp), seed2, None, k2, g, amp);
  }

  // ---------------------------------------------------------------------
  // Connectivity of a grown list.

  /** Every member after the seed was claimed from an earlier member it
      neighbours and lies strictly below: the front that claimed it. Fronts
      therefore fall strictly along every chain of claims. */
  predicate Connected(c: seq<int>, g: Geometry, amp: Amplitude)
  {
    forall m :: 1 <= m < |c| ==> HasParent(c, m, g, amp)
  }

  /** Member m neighbours an earlier member strictly above it. */
  predicate HasParent(c: seq<int>, m: nat, g: Geometry, amp: Amplitude)
    requires m < |c|
  {
    exists p :: 0 <= p < m && AreNeighbours(c[p], c[m], g) && amp(c[m]) < amp(c[p])
  }

  /** A cell claimed from a front already in the list keeps it connected. */
  lemma ClaimConnected(c: seq<int>, x: int, front: int, g: Geometry, amp: Amplitude)
    requires Connected(c, g, amp) && front in c
    requires AreNeighbours(front, x, g) && amp(x) < amp(front)
    ensures Connected(c + [x], g, amp)
  {
    var c' := c + [x];
    var p0 :| 0 <= p0 < |c| && c[p0] == front;
    forall m | 1 <= m < |c'| ensures HasParent(c', m, g, amp) {
      if m < |c| {
        assert HasParent(c, m, g, amp);
        var p :| 0 <= p < m && AreNeighbours(c[p], c[m], g) && amp(c[m]) < amp(c[p]);
        assert c'[p] == c[p] && c'[m] == c[m];
      } else {
        assert c'[p0] == front && c'[m] == x;
      }
    }
  }

  /** A pass from a front in the list keeps the list connected. */
  lemma {:induction false} ScanConnected(pool: seq<int>, i: nat, front: int, excluded: Option<int>, sub: SubCluster,
                                         added: bool, g: Geometry, amp: Amplitude)
    requires i <= |pool| && Connected(sub.cells, g, amp) && front in sub.cells
    ensures Connected(Scan(pool, i, front, excluded, sub, added, g, amp).sub.cells, g, amp)
    decreases |pool| - i
  {
    if i < |pool| {
      if Claimable(pool[i], front, excluded, g, amp) {
        ClaimConnected(sub.cells, pool[i], front, g, amp);
        ScanConnected(pool[i := NoCell], i + 1, front, excluded, Claim(sub, pool[i], amp), true, g, amp);
      } else {
        ScanConnected(pool, i + 1, front, excluded, sub, added, g, amp);
      }
    }
  }

  /** Every pass starts from the last claimed cell, a member of the list, so
      the grown list stays connected. */
  lemma {:induction false} GrowConnected(pool: seq<int>, sub: SubCluster, excluded: Option<int>, g: Geometry, amp: Amplitude)
    requires |sub.cells| > 0 && Connected(sub.cells, g, amp)
    ensures Connected(Grow(pool, sub, excluded, g, amp).1.cells, g, amp)
    decreases CountLive(pool)
  {
    var s := Scan(pool, 0, Last(sub.cells), excluded, sub, false, g, amp);
    ScanConnected(pool, 0, Last(sub.cells), excluded, sub, false, g, amp);
    GrowUnfold(pool, sub, excluded, g, amp);
    if s.added {
      GrowConnected(s.pool, s.sub, excluded, g, amp);
    }
  }

  /** Both sub-lists are connected: each member neighbours an earlier,
      strictly higher member of its own list. */
  lemma SplitConnected(cells: seq<int>, seed1: int, seed2: int, g: Geometry, amp: Amplitude)
    ensures var r := Split(cells, seed1, seed2, g, amp);
      Connected(r.0.cells, g, amp) && Connected(r.1.cells, g, amp)
  {
    var first := Grow(cells, Seeded(seed1, amp), Some(seed2), g, amp);
    GrowConnected(cells, Seeded(seed1, amp), Some(seed2), g, amp);
    GrowConnected(first.0, Seeded(seed2, amp), None, g, amp);
  }

  // ---------------------------------------------------------------------
  // A growth stops only when its front has nothing left to claim.

  /** A pass claims nothing exactly when no slot it visits is claimable from
      the front; such a pass leaves pool and sub-cluster as they were. */
  lemma {:induction false} ScanClaimsNothing(pool: seq<int>, i: nat, front: int, excluded: Option<int>, sub: SubCluster,
                                             g: Geometry, amp: Amplitude)
    requires i <= |pool|
    ensures var r := Scan(pool, i, front, excluded, sub, false, g, amp);
      && (!r.added <==> forall k :: i <= k < |pool| ==> !Claimable(pool[k], front, excluded, g, amp))
      && (!r.added ==> r.pool == pool && r.sub == sub)
    decreases |pool| - i
  {
    if i < |pool| && !Claimable(pool[i], front, excluded, g, amp) {
      ScanClaimsNothing(pool, i + 1, front, excluded, sub, g, amp);
    }
  }

  /** No slot of the pool is claimable from the front. */
  predicate Exhausted(pool: seq<int>, front: int, excluded: Option<int>, g: Geometry, amp: Amplitude)
  {
    forall k :: 0 <= k < |pool| ==> !Claimable(pool[k], front, excluded, g, amp)
  }

  /** When the growth ends, no slot left in the pool is claimable from the
      last claimed cell: the `while (added)` loop only stops on a pass that
      finds nothing. */
  lemma {:induction false} GrowStops(pool: seq<int>, sub: SubCluster, excluded: Option<int>, g: Geometry, amp: Amplitude)
    requires |sub.cells| > 0
    ensures var r := Grow(pool, sub, excluded, g, amp);
      Exhausted(r.0, Last(r.1.cells), excluded, g, amp)
    decreases CountLive(pool)
  {
    var s := Scan(pool, 0, Last(sub.cells), excluded, sub, false, g, amp);
    GrowUnfold(pool, sub, excluded, g, amp);
    ScanClaimsNothing(pool, 0, Last(sub.cells), excluded, sub, g, amp);
    if s.added {
      GrowStops(s.pool, s.sub, excluded, g, amp);
    }
  }

  /** The pool after both growths. */
  function Leftover(cells: seq<int>, seed1: int, seed2: int, g: Geometry, amp: Amplitude): seq<int>
  {
    Grow(Split1(cells, seed1, seed2, g, amp).0, Seeded(seed2, amp), None, g, amp).0
  }

  /** Each growth is complete: every cell it was given either joined its list
      or is still in the pool and cannot be claimed from the list's last cell.
      Growth 1 works on the cluster, growth 2 on the pool growth 1 left. */
  lemma SplitStops(cells: seq<int>, seed1: int, seed2: int, g: Geometry, amp: Amplitude)
    requires SafeSeeds(cells, seed1, seed2, amp)
    ensures var r, p1, p2 := Split(cells, seed1, seed2, g, amp), Split1(cells, seed1, seed2, g, amp).0,
                             Leftover(cells, seed1, seed2, g, amp);
      && |p1| == |cells| && |p2| == |cells|
      && (forall k :: 0 <= k < |cells| ==>
            cells[k] in r.0.cells[1..] || (p1[k] == cells[k] && !Claimable(cells[k], Last(r.0.cells), Some(seed2), g, amp)))
      && (forall k :: 0 <= k < |cells| ==>
            p1[k] in r.1.cells[1..] || (p2[k] == p1[k] && !Claimable(p1[k], Last(r.1.cells), None, g, amp)))
  {
    FirstGrowthStops(cells, seed1, seed2, g, amp);
    SecondGrowthStops(cells, seed1, seed2, g, amp);
  }

  /** Growth 1 is complete over the cluster. */
  lemma FirstGrowthStops(cells: seq<int>, seed1: int, seed2: int, g: Geometry, amp: Amplitude)
    requires SafeSeeds(cells, seed1, seed2, amp)
    ensures var first := Split1(cells, seed1, seed2, g, amp);
      && |first.0| == |cells|
      && forall k :: 0 <= k < |cells| ==>
           cells[k] in first.1.cells[1..] || (first.0[k] == cells[k] && !Claimable(cells[k], Last(first.1.cells), Some(seed2), g, amp))
  {
    var first := Split1(cells, seed1, seed2, g, amp);
    var k1 := FirstGrowth(cells, seed1, seed2, g, amp);
    GrowStops(cells, Seeded(seed1, amp), Some(seed2), g, amp);
    StoppedComplete(cells, first.0, first.1.cells, Last(first.1.cells), Some(seed2), g, amp);
  }

  /** Growth 2 is complete over the pool growth 1 left. */
  lemma SecondGrowthStops(cells: seq<int>, seed1: int, seed2: int, g: Geometry, amp: Amplitude)
    requires SafeSeeds(cells, seed1, seed2, amp)
    ensures var p1 := Split1(cells, seed1, seed2, g, amp).0;
      var second := Grow(p1, Seeded(seed2, amp), None, g, amp);
      && |p1| == |cells| && |second.0| == |cells|
      && forall k :: 0 <= k < |cells| ==>
           p1[k] in second.1.cells[1..] || (second.0[k] == p1[k] && !Claimable(p1[k], Last(second.1.cells), None, g, amp))
  {
    var p1 := Split1(cells, seed1, seed2, g, amp).0;
    var second := Grow(p1, Seeded(seed2, amp), None, g, amp);
    var k2 := SecondGrowth(cells, seed1, seed2, g, amp);
    GrowStops(p1, Seeded(seed2, amp), None, g, amp);
    StoppedComplete(p1, second.0, second.1.cells, Last(second.1.cells), None, g, amp);
  }

  /** A finished growth accounts for every slot it started from: a slot that
      died was claimed, and a slot still holding its cell is not claimable. */
  lemma StoppedComplete(start: seq<int>, pool: seq<int>, claimed: seq<int>, front: int, excluded: Option<int>,
                        g: Geometry, amp: Amplitude)
    requires Dies(start, pool) && |claimed| >= 1 && Traced(start, pool, claimed)
    requires Exhausted(pool, front, excluded, g, amp)
    ensures forall k :: 0 <= k < |start| ==>
      start[k] in claimed[1..] || (pool[k] == start[k] && !Claimable(start[k], front, excluded, g, amp))
  {
    forall k | 0 <= k < |start|
      ensures start[k] in claimed[1..] || (pool[k] == start[k] && !Claimable(start[k], front, excluded, g, amp))
    {
      if pool[k] != start[k] {
        assert start[k] in claimed[1..];
      }
    }
  }

  // ---------------------------------------------------------------------
  // A pass claims every slot it can claim from its front.

  /** The pool after a pass from slot i: exactly the slots from i on that are
      claimable from the front have died. */
  function Sweep(pool: seq<int>, i: nat, front: int, excluded: Option<int>, g: Geometry, amp: Amplitude): seq<int>
  {
    seq(|pool|, k requires 0 <= k < |pool| =>
      if i <= k && Claimable(pool[k], front, excluded, g, amp) then NoCell else pool[k])
  }

  /** The cells of s that are claimable from the front, in pool order. */
  function ClaimableIn(s: seq<int>, front: int, excluded: Option<int>, g: Geometry, amp: Amplitude): seq<int>
  {
    if |s| == 0 then []
    else
      var head := if Claimable(s[0], front, excluded, g, amp) then [s[0]] else [];
      head + ClaimableIn(s[1..], front, excluded, g, amp)
  }

  /** ClaimableIn keeps exactly the claimable cells. */
  lemma {:induction false} ClaimableInMembers(s: seq<int>, front: int, excluded: Option<int>, g: Geometry, amp: Amplitude)
    ensures forall x :: x in ClaimableIn(s, front, excluded, g, amp) <==> x in s && Claimable(x, front, excluded, g, amp)
  {
    if |s| > 0 {
      ClaimableInMembers(s[1..], front, excluded, g, amp);
      assert forall x :: x in s <==> x == s[0] || x in s[1..];
    }
  }

  /** A pass from slot i kills exactly the claimable slots from i on and
      appends exactly their cells, in pool order, to the sub-cluster. */
  lemma ScanSweeps(pool: seq<int>, i: nat, front: int, excluded: Option<int>, sub: SubCluster,
                   added: bool, g: Geometry, amp: Amplitude)
    requires i <= |pool|
    ensures var r := Scan(pool, i, front, excluded, sub, added, g, amp);
      && r.pool == Sweep(pool, i, front, excluded, g, amp)
      && r.sub.cells == sub.cells + ClaimableIn(pool[i..], front, excluded, g, amp)
  {
    ScanSweepsPool(pool, i, front, excluded, sub, added, g, amp);
    ScanSweepsCells(pool, i, front, excluded, sub, added, g, amp);
  }

  /** Slot i decides the same way in the sweep from i as in the sweep from
      i + 1 of the pool after slot i was handled. */
  lemma SweepStep(pool: seq<int>, i: nat, front: int, excluded: Option<int>, g: Geometry, amp: Amplitude)
    requires i < |pool|
    ensures var p := if Claimable(pool[i], front, excluded, g, amp) then pool[i := NoCell] else pool;
      Sweep(p, i + 1, front, excluded, g, amp) == Sweep(pool, i, front, excluded, g, amp)
  {
  }

  lemma {:induction false} ScanSweepsPool(pool: seq<int>, i: nat, front: int, excluded: Option<int>, sub: SubCluster,
                                          added: bool, g: Geometry, amp: Amplitude)
    requires i <= |pool|
    ensures Scan(pool, i, front, excluded, sub, added, g, amp).pool == Sweep(pool, i, front, excluded, g, amp)
    decreases |pool| - i
  {
    if i == |pool| {
      assert Sweep(pool, i, front, excluded, g, amp) == pool;
    } else {
      SweepStep(pool, i, front, excluded, g, amp);
      if Claimable(pool[i], front, excluded, g, amp) {
        ScanSweepsPool(pool[i := NoCell], i + 1, front, excluded, Claim(sub, pool[i], amp), true, g, amp);
      } else {
        ScanSweepsPool(pool, i + 1, front, excluded, sub, added, g, amp);
      }
    }
  }

  lemma {:induction false} ScanSweepsCells(pool: seq<int>, i: nat, front: int, excluded: Option<int>, sub: SubCluster,
                                           added: bool, g: Geometry, amp: Amplitude)
    requires i <= |pool|
    ensures Scan(pool, i, front, excluded, sub, added, g, amp).sub.cells
      == sub.cells + ClaimableIn(pool[i..], front, excluded, g, amp)
    decreases |pool| - i
  {
    if i == |pool| {
      assert pool[i..] == [];
      assert sub.cells + [] == sub.cells;
    } else if Claimable(pool[i], front, excluded, g, amp) {
      var p := pool[i := NoCell];
      var sub' := Claim(sub, pool[i], amp);
      ScanSweepsCells(p, i + 1, front, excluded, sub', true, g, amp);
      assert Scan(pool, i, front, excluded, sub, added, g, amp).sub.cells
          == sub.cells + ClaimableIn(pool[i..], front, excluded, g, amp) by {
        var rest := ClaimableIn(pool[i + 1..], front, excluded, g, amp);
        ClaimableInStep(pool, i, front, excluded, g, amp);
        ScanStep(pool, i, front, excluded, sub, added, g, amp);
        assert p[i + 1..] == pool[i + 1..];
        assert sub'.cells + rest == sub.cells + ([pool[i]] + rest);
      }
    } else {
      ScanSweepsCells(pool, i + 1, front, excluded, sub, added, g, amp);
      assert Scan(pool, i, front, excluded, sub, added, g, amp).sub.cells
          == sub.cells + ClaimableIn(pool[i..], front, excluded, g, amp) by {
        ClaimableInStep(pool, i, front, excluded, g, amp);
        ScanStep(pool, i, front, excluded, sub, added, g, amp);
        assert [] + ClaimableIn(pool[i + 1..], front, excluded, g, amp) == ClaimableIn(pool[i + 1..], front, excluded, g, amp);
      }
    }
  }

  /** One slot of a pass, unfolded. */
  lemma ScanStep(pool: seq<int>, i: nat, front: int, excluded: Option<int>, sub: SubCluster,
                 added: bool, g: Geometry, amp: Amplitude)
    requires i < |pool|
    ensures Scan(pool, i, front, excluded, sub, added, g, amp)
      == if Claimable(pool[i], front, excluded, g, amp)
         then Scan(pool[i := NoCell], i + 1, front, excluded, Claim(sub, pool[i], amp), true, g, amp)
         else Scan(pool, i + 1, front, excluded, sub, added, g, amp)
  {
  }

  /** ClaimableIn from slot i: slot i's own contribution, then the rest. */
  lemma ClaimableInStep(pool: seq<int>, i: nat, front: int, excluded: Option<int>, g: Geometry, amp: Amplitude)
    requires i < |pool|
    ensures ClaimableIn(pool[i..], front, excluded, g, amp)
      == (if Claimable(pool[i], front, excluded, g, amp) then [pool[i]] else [])
         + ClaimableIn(pool[i + 1..], front, excluded, g, amp)
  {
    assert pool[i..][1..] == pool[i + 1..];
  }

  /** A growth only appends to the list it was given. */
  lemma {:induction false} GrowExtends(pool: seq<int>, sub: SubCluster, excluded: Option<int>, g: Geometry, amp: Amplitude)
    requires |sub.cells| > 0
    ensures sub.cells <= Grow(pool, sub, excluded, g, amp).1.cells
    decreases CountLive(pool)
  {
    var s := Scan(pool, 0, Last(sub.cells), excluded, sub, false, g, amp);
    GrowUnfold(pool, sub, excluded, g, amp);
    ScanSweeps(pool, 0, Last(sub.cells), excluded, sub, false, g, amp);
    if s.added {
      GrowExtends(s.pool, s.sub, excluded, g, amp);
      var t := Grow(s.pool, s.sub, excluded, g, amp).1.cells;
      assert t[..|sub.cells|] == s.sub.cells[..|sub.cells|];
    }
  }

  /** Every pool cell claimable from the list's last cell when a growth starts
      ends up in the grown list: the first pass claims all of them. */
  lemma GrowClaimsFront(pool: seq<int>, sub: SubCluster, excluded: Option<int>, g: Geometry, amp: Amplitude)
    requires |sub.cells| > 0
    ensures forall x :: x in pool && Claimable(x, Last(sub.cells), excluded, g, amp) ==>
      x in Grow(pool, sub, excluded, g, amp).1.cells
  {
    var s := Scan(pool, 0, Last(sub.cells), excluded, sub, false, g, amp);
    var t := Grow(pool, sub, excluded, g, amp).1.cells;
    GrowUnfold(pool, sub, excluded, g, amp);
    ScanSweepsCells(pool, 0, Last(sub.cells), excluded, sub, false, g, amp);
    assert pool[0..] == pool;
    ClaimableInMembers(pool, Last(sub.cells), excluded, g, amp);
    if s.added {
      GrowExtends(s.pool, s.sub, excluded, g, amp);
    }
    assert s.sub.cells <= t;
    forall x | x in pool && Claimable(x, Last(sub.cells), excluded, g, amp)
      ensures x in t
    {
      assert x in s.sub.cells;
      var m :| 0 <= m < |s.sub.cells| && s.sub.cells[m] == x;
      assert t[m] == x;
    }
  }

  /** Each growth claims every cell it is given that neighbours its seed and
      lies strictly below it: growth 1 over the cluster (seed 2 excluded),
      growth 2 over the pool growth 1 left. */
  lemma SplitClaimsSeedNeighbours(cells: seq<int>, seed1: int, seed2: int, g: Geometry, amp: Amplitude)
    ensures var r, p1 := Split(cells, seed1, seed2, g, amp), Split1(cells, seed1, seed2, g, amp).0;
      && (forall x :: x in cells && Claimable(x, seed1, Some(seed2), g, amp) ==> x in r.0.cells[1..])
      && (forall x :: x in p1 && Claimable(x, seed2, None, g, amp) ==> x in r.1.cells[1..])
  {
    var r := Split(cells, seed1, seed2, g, amp);
    GrowClaimsFront(cells, Seeded(seed1, amp), Some(seed2), g, amp);
    GrowClaimsFront(Split1(cells, seed1, seed2, g, amp).0, Seeded(seed2, amp), None, g, amp);
    GrowExtends(cells, Seeded(seed1, amp), Some(seed2), g, amp);
    GrowExtends(Split1(cells, seed1, seed2, g, amp).0, Seeded(seed2, amp), None, g, amp);
    assert forall x :: x in r.0.cells && x != r.0.cells[0] ==> x in r.0.cells[1..];
    assert forall x :: x in r.1.cells && x != r.1.cells[0] ==> x in r.1.cells[1..];
  }

  /** Both sub-lists fit in arrays of the cluster's size and start with their
      seed; every other member is a cluster cell strictly below its seed and
      neighbours an earlier, strictly higher member of its list (the front
      that claimed it), sub-cluster 1 never takes seed 2, and each energy is
      the sum over its list. Each growth is complete: it claims every cell it
      was given that is claimable from its seed, and a cell it was given that
      did not join its list is still in the pool and cannot be claimed from
      the list's last cell. */
  lemma SplitBounded(cells: seq<int>, seed1: int, seed2: int, g: Geometry, amp: Amplitude)
    requires SafeSeeds(cells, seed1, seed2, amp)
    ensures var r := Split(cells, seed1, seed2, g, amp);
      && 1 <= |r.0.cells| <= |cells| && 1 <= |r.1.cells| <= |cells|
      && r.0.cells[0] == seed1 && r.1.cells[0] == seed2
      && (forall m :: 1 <= m < |r.0.cells| ==>
            r.0.cells[m] in cells && amp(r.0.cells[m]) < amp(seed1) && r.0.cells[m] != seed2)
      && (forall m :: 1 <= m < |r.1.cells| ==> r.1.cells[m] in cells && amp(r.1.cells[m]) < amp(seed2))
      && r.0.energy == SumE(r.0.cells, amp) && r.1.energy == SumE(r.1.cells, amp)
      && Connected(r.0.cells, g, amp) && Connected(r.1.cells, g, amp)
      && (var p1, p2 := Split1(cells, seed1, seed2, g, amp).0, Leftover(cells, seed1, seed2, g, amp);
          && |p1| == |cells| && |p2| == |cells|
          && (forall x :: x in cells && Claimable(x, seed1, Some(seed2), g, amp) ==> x in r.0.cells[1..])
          && (forall x :: x in p1 && Claimable(x, seed2, None, g, amp) ==> x in r.1.cells[1..])
          && (forall k :: 0 <= k < |cells| ==>
                cells[k] in r.0.cells[1..] || (p1[k] == cells[k] && !Claimable(cells[k], Last(r.0.cells), Some(seed2), g, amp)))
          && (forall k :: 0 <= k < |cells| ==>
                p1[k] in r.1.cells[1..] || (p2[k] == p1[k] && !Claimable(p1[k], Last(r.1.cells), None, g, amp))))
  {
    SplitConnected(cells, seed1, seed2, g, amp);
    SplitStops(cells, seed1, seed2, g, amp);
    SplitClaimsSeedNeighbours(cells, seed1, seed2, g, amp);
    var first := Split1(cells, seed1, seed2, g, amp);
    var second := Grow(first.0, Seeded(seed2, amp), None, g, amp);
    var k1 := FirstGrowth(cells, seed1, seed2, g, amp);
    var k2 := SecondGrowth(cells, seed1, seed2, g, amp);
    CountLivePositive(first.0, k1);
    CountLivePositive(second.0, k2);
    forall m | 1 <= m < |second.1.cells| ensures second.1.cells[m] in cells {
      var x := second.1.cells[m];
      var k :| 0 <= k < |first.0| && first.0[k] == x;
      assert cells[k] == x;
    }
  }

  /** With distinct cluster ids, no cell other than a seed is claimed twice or
      by both growths; if moreover the seeds differ and seed 2 is not above
      seed 1, the two lists share no cell at all. */
  lemma SplitDisjoint(cells: seq<int>, seed1: int, seed2: int, g: Geometry, amp: Amplitude)
    requires SafeSeeds(cells, seed1, seed2, amp) && DistinctLive(cells)
    ensures var r := Split(cells, seed1, seed2, g, amp);
      && Distinct(r.0.cells) && Distinct(r.1.cells)
      && (forall m, m' :: 1 <= m < |r.0.cells| && 1 <= m' < |r.1.cells| ==> r.0.cells[m] != r.1.cells[m'])
      && (seed1 != seed2 && amp(seed2) <= amp(seed1) ==> forall x :: x in r.0.cells ==> x !in r.1.cells)
  {
    var first := Split1(cells, seed1, seed2, g, amp);
    var second := Grow(first.0, Seeded(seed2, amp), None, g, amp);
    var k1 := FirstGrowth(cells, seed1, seed2, g, amp);
    var k2 := SecondGrowth(cells, seed1, seed2, g, amp);
    DiesKeepsDistinctLive(cells, first.0);
    SplitBounded(cells, seed1, seed2, g, amp);
    forall m, m' | 1 <= m < |first.1.cells| && 1 <= m' < |second.1.cells| ensures first.1.cells[m] != second.1.cells[m'] {
      assert first.1.cells[m] !in first.0;
      assert second.1.cells[m'] in first.0;
    }
    if seed1 != seed2 && amp(seed2) <= amp(seed1) {
      forall x | x in first.1.cells ensures x !in second.1.cells {
        var m :| 0 <= m < |first.1.cells| && first.1.cells[m] == x;
      }
    }
  }

  // ---------------------------------------------------------------------
  // The imperative passes of the source, over arrays.

  /** SplitEnergy: both growths over one pool array; returns the two
      accumulated energies and, for inspection, the two sub-cluster lists. */
  method SplitEnergy(cells: seq<int>, seed1: int, seed2: int, g: Geometry, amp: Amplitude)
    returns (e1: real, e2: real, sub1: seq<int>, sub2: seq<int>)
    requires SafeSeeds(cells, seed1, seed2, amp)
    ensures (SubCluster(sub1, e1), SubCluster(sub2, e2)) == Split(cells, seed1, seed2, g, amp)
    ensures 1 <= |sub1| <= |cells| && 1 <= |sub2| <= |cells|
    ensures sub1[0] == seed1 && sub2[0] == seed2
    ensures e1 == SumE(sub1, amp) && e2 == SumE(sub2, amp)
  {
    var nCells := |cells|;
    var pool := new int[nCells](k requires 0 <= k < nCells => cells[k]);
    assert pool[..] == cells;
    SplitBounded(cells, seed1, seed2, g, amp);
    sub1, e1 := GrowPass(pool, seed1, Some(seed2), g, amp);
    sub2, e2 := GrowPass(pool, seed2, None, g, amp);
  }

  /** One growth loop of the source (`while (added)` with its cell loop), on
      the pool array; `excluded` is seed 2 in the first growth and absent in the
      second. The sub-cluster list lives in an array of the pool's size. */
  method GrowPass(pool: array<int>, seed: int, excluded: Option<int>, g: Geometry, amp: Amplitude)
    returns (list: seq<int>, e: real)
    modifies pool
    requires pool.Length >= 1
    requires |Grow(pool[..], Seeded(seed, amp), excluded, g, amp).1.cells| <= pool.Length
    ensures (pool[..], SubCluster(list, e)) == Grow(old(pool[..]), Seeded(seed, amp), excluded, g, amp)
  {
    var nCells := pool.Length;
    ghost var final := Grow(pool[..], Seeded(seed, amp), excluded, g, amp);
    var buf := new int[nCells](_ => NoCell);
    buf[0] := seed;
    var n := 1;
    e := amp(seed);
    assert buf[..n] == [seed];
    var added := true;
    while added
      invariant 1 <= n <= nCells && buf.Length == nCells && buf != pool
      invariant added ==> Grow(pool[..], SubCluster(buf[..n], e), excluded, g, amp) == final
      invariant !added ==> (pool[..], SubCluster(buf[..n], e)) == final
      invariant |final.1.cells| <= nCells
      decreases CountLive(pool[..]) + (if added then 1 else 0)
    {
      var front := buf[n - 1];
      ghost var sub := SubCluster(buf[..n], e);
      ghost var sc := Scan(pool[..], 0, front, excluded, sub, false, g, amp);
      assert front == Last(sub.cells);
      GrowUnfold(pool[..], sub, excluded, g, amp);
      n, e, added := ScanPass(pool, buf, n, e, front, excluded, g, amp);
    }
    list := buf[..n];
  }

  /** One pass of the cell loop, from the fixed front; claimed cells are
      appended to `buf` after its first n0 entries. */
  method ScanPass(pool: array<int>, buf: array<int>, n0: nat, e0: real, front: int, excluded: Option<int>,
                  g: Geometry, amp: Amplitude)
    returns (n: nat, e: real, added: bool)
    modifies pool, buf
    requires pool != buf && buf.Length == pool.Length && 1 <= n0 <= buf.Length
    requires |Scan(pool[..], 0, front, excluded, SubCluster(buf[..n0], e0), false, g, amp).sub.cells| <= buf.Length
    ensures 1 <= n <= buf.Length
    ensures ScanState(pool[..], SubCluster(buf[..n], e), added)
         == Scan(old(pool[..]), 0, front, excluded, SubCluster(old(buf[..n0]), e0), false, g, amp)
  {
    var nCells := pool.Length;
    ghost var sc := Scan(pool[..], 0, front, excluded, SubCluster(buf[..n0], e0), false, g, amp);
    n, e, added := n0, e0, false;
    for i := 0 to nCells
      invariant 1 <= n <= nCells
      invariant Scan(pool[..], i, front, excluded, SubCluster(buf[..n], e), added, g, amp) == sc
    {
      n, e, added := ScanSlot(pool, buf, i, n, e, added, front, excluded, g, amp, sc);
    }
  }

  /** One slot of the pass: a claimable cell moves from the pool to the
      buffer, which has room for it, as in the claim step of the functional
      scan; any other slot leaves both untouched. */
  method ScanSlot(pool: array<int>, buf: array<int>, i: nat, n: nat, e: real, added: bool,
                  front: int, excluded: Option<int>, g: Geometry, amp: Amplitude, ghost sc: ScanState)
    returns (n1: nat, e1: real, added1: bool)
    modifies pool, buf
    requires pool != buf && buf.Length == pool.Length && i < pool.Length && 1 <= n <= pool.Length
    requires Scan(pool[..], i, front, excluded, SubCluster(buf[..n], e), added, g, amp) == sc
    requires |sc.sub.cells| <= buf.Length
    ensures 1 <= n1 <= pool.Length
    ensures Scan(pool[..], i + 1, front, excluded, SubCluster(buf[..n1], e1), added1, g, amp) == sc
  {
    var id := pool[i];
    if !Claimable(id, front, excluded, g, amp) {
      return n, e, added;
    }
    ghost var slots := pool[..];
    ghost var before := SubCluster(buf[..n], e);
    assert Scan(slots[i := NoCell], i + 1, front, excluded, Claim(before, id, amp), true, g, amp) == sc;
    ClaimSlot(pool, buf, i, n, id);
    n1, e1, added1 := n + 1, e + amp(id), true;
    assert SubCluster(buf[..n1], e1) == Claim(before, id, amp);
  }

  /** The slot update of one claim: the slot is overwritten by -1 and the cell
      appended to the sub-cluster buffer. */
  method ClaimSlot(pool: array<int>, buf: array<int>, i: nat, n: nat, id: int)
    modifies pool, buf
    requires pool != buf && i < pool.Length && n < buf.Length
    ensures pool[..] == old(pool[..])[i := NoCell]
    ensures buf[..n + 1] == old(buf[..n]) + [id]
  {
    pool[i] := NoCell;
    buf[n] := id;
  }

  // ---------------------------------------------------------------------
  // Worked examples, with cells on one row and cell id = column.

  /** Energies 4, 10, 5, 3 at columns 0..3, and 1 elsewhere. */
  function FanEnergy(id: int): real
  {
    if id == 0 then 4.0 else if id == 1 then 10.0 else if id == 2 then 5.0 else if id == 3 then 3.0 else 1.0
  }

  /** Only the last-claimed cell becomes the next front: from seed 1 the first
      pass claims columns 2 and 0, the next front is column 0, and column 3 is
      never claimed although 10 > 5 > 3 runs downhill to it through column 2. */
  lemma EarlierClaimsNeverExpand()
    ensures Split([1, 2, 0, 3, 10], 1, 10, RowGeometry, FanEnergy)
         == (SubCluster([1, 2, 0], 19.0), SubCluster([10], 1.0))
  {
    var g, amp := RowGeometry, FanEnergy;
    var cells, p2, c2 := [1, 2, 0, 3, 10], [1, -1, -1, 3, 10], SubCluster([1, 2, 0], 19.0);
    FanPassOne();
    assert Scan(p2, 0, 0, Some(10), c2, false, g, amp) == ScanState(p2, c2, false);
    assert Grow(cells, Seeded(1, amp), Some(10), g, amp) == (p2, c2);
    assert Scan(p2, 0, 10, None, Seeded(10, amp), false, g, amp) == ScanState(p2, Seeded(10, amp), false);
  }

  /** The first pass of EarlierClaimsNeverExpand, from seed 1 at column 1. */
  lemma FanPassOne()
    ensures Scan([1, 2, 0, 3, 10], 0, 1, Some(10), Seeded(1, FanEnergy), false, RowGeometry, FanEnergy)
         == ScanState([1, -1, -1, 3, 10], SubCluster([1, 2, 0], 19.0), true)
  {
    var g, amp := RowGeometry, FanEnergy;
    var cells, p1 := [1, 2, 0, 3, 10], [1, -1, 0, 3, 10];
    FanPassOneTail();
    assert cells[1 := NoCell] == p1 && Claimable(cells[1], 1, Some(10), g, amp);
    assert Claim(Seeded(1, amp), 2, amp) == SubCluster([1, 2], 15.0);
  }

  lemma FanPassOneTail()
    ensures Scan([1, -1, 0, 3, 10], 2, 1, Some(10), SubCluster([1, 2], 15.0), true, RowGeometry, FanEnergy)
         == ScanState([1, -1, -1, 3, 10], SubCluster([1, 2, 0], 19.0), true)
  {
    var g, amp := RowGeometry, FanEnergy;
    var p1, p2 := [1, -1, 0, 3, 10], [1, -1, -1, 3, 10];
    var c2 := SubCluster([1, 2, 0], 19.0);
    assert Scan(p2, 3, 1, Some(10), c2, true, g, amp) == ScanState(p2, c2, true);
    assert p1[2 := NoCell] == p2 && Claimable(p1[2], 1, Some(10), g, amp);
  }

  /** Energies 10, 5, 3, 2 at columns 0..3. */
  function SlopeEnergy(id: int): real
  {
    if id == 0 then 10.0 else if id == 1 then 5.0 else if id == 2 then 3.0 else 2.0
  }

  /** The second growth does not exclude seed 1: from seed 2 at column 0 it
      runs down columns 1, 2 and takes seed 1 at column 3, which therefore ends
      up in both sub-clusters and its energy in both sums. */
  lemma SeedOneClaimedBySecondGrowth()
    ensures Split([1, 3, 2, 0], 3, 0, RowGeometry, SlopeEnergy)
         == (SubCluster([3], 2.0), SubCluster([0, 1, 2, 3], 20.0))
  {
    var g, amp := RowGeometry, SlopeEnergy;
    var cells := [1, 3, 2, 0];
    assert Scan(cells, 0, 3, Some(0), Seeded(3, amp), false, g, amp) == ScanState(cells, Seeded(3, amp), false);
    assert Grow(cells, Seeded(3, amp), Some(0), g, amp) == (cells, Seeded(3, amp));
    SlopePassOne();
    SlopePassTwo();
    SlopePassThree();
    var t3 := ScanState([-1, -1, -1, 0], SubCluster([0, 1, 2, 3], 20.0), true);
    assert Scan(t3.pool, 0, 3, None, t3.sub, false, g, amp) == ScanState(t3.pool, t3.sub, false);
    assert Grow(t3.pool, t3.sub, None, g, amp) == (t3.pool, t3.sub);
  }

  /** The passes of the second growth in SeedOneClaimedBySecondGrowth. */
  lemma SlopePassOne()
    ensures Scan([1, 3, 2, 0], 0, 0, None, Seeded(0, SlopeEnergy), false, RowGeometry, SlopeEnergy)
         == ScanState([-1, 3, 2, 0], SubCluster([0, 1], 15.0), true)
  {
    var g, amp := RowGeometry, SlopeEnergy;
    var cells, p1, c1 := [1, 3, 2, 0], [-1, 3, 2, 0], SubCluster([0, 1], 15.0);
    assert Scan(p1, 1, 0, None, c1, true, g, amp) == ScanState(p1, c1, true);
    assert cells[0 := NoCell] == p1 && Claimable(cells[0], 0, None, g, amp);
    assert Claim(Seeded(0, amp), 1, amp) == c1;
  }

  lemma SlopePassTwo()
    ensures Scan([-1, 3, 2, 0], 0, 1, None, SubCluster([0, 1], 15.0), false, RowGeometry, SlopeEnergy)
         == ScanState([-1, 3, -1, 0], SubCluster([0, 1, 2], 18.0), true)
  {
    var g, amp := RowGeometry, SlopeEnergy;
    var p1, p2 := [-1, 3, 2, 0], [-1, 3, -1, 0];
    var c1, c2 := SubCluster([0, 1], 15.0), SubCluster([0, 1, 2], 18.0);
    assert Scan(p2, 3, 1, None, c2, true, g, amp) == ScanState(p2, c2, true);
    assert p1[2 := NoCell] == p2 && Claimable(p1[2], 1, None, g, amp);
    assert Scan(p1, 2, 1, None, c1, false, g, amp) == ScanState(p2, c2, true);
  }

  lemma SlopePassThree()
    ensures Scan([-1, 3, -1, 0], 0, 2, None, SubCluster([0, 1, 2], 18.0), false, RowGeometry, SlopeEnergy)
         == ScanState([-1, -1, -1, 0], SubCluster([0, 1, 2, 3], 20.0), true)
  {
    var g, amp := RowGeometry, SlopeEnergy;
    var p2, p3 := [-1, 3, -1, 0], [-1, -1, -1, 0];
    var c2, c3 := SubCluster([0, 1, 2], 18.0), SubCluster([0, 1, 2, 3], 20.0);
    assert Scan(p3, 2, 2, None, c3, true, g, amp) == ScanState(p3, c3, true);
    assert p2[1 := NoCell] == p3 && Claimable(p2[1], 2, None, g, amp);
    assert Scan(p2, 1, 2, None, c2, false, g, amp) == ScanState(p3, c3, true);
  }
}
